=== FILE: README.md ===
# ExpendiForge core in Dafny

ExpendiForge is a small expense tracker. Shoppers upload purchases, optionally with
a receipt file. Admins browse the purchases on a dashboard and download them as CSV.
Developers pass every role gate. This project models the tracker's rules over an
immutable store of the four tables, `users`, `categories`, `purchases` and `audit_logs`,
and proves what the rules promise:

- **Store** (`models.dfy`): the four records with their nullable columns and
  defaults, plus `Valid`. `Valid` holds the primary keys, unique usernames, emails
  and category names, the two CHECK constraints (`amount > 0`, `quantity > 0`), known
  roles and the links between rows. New ids follow SQLite's rowid rule: one more than
  the largest id in the table, whatever its sign, or 1 for an empty table. Integer
  columns hold 64-bit signed values.
- **Access** (`access.dfy`): `login_required` and `role_required`, where `dev` passes
  every gate.
- **Registration** (`registration.dfy`): required fields, role normalisation, and
  username and email uniqueness.
- **Upload** (`upload.dfy`): field validation in the handler's order, the
  extension check `allowed_file`, and the all-or-nothing append of one purchase and
  its `create` audit entry.
- **Filter** (`filter.dfy`, `like.dfy`): the six ANDed criteria shared by the
  dashboard and the export, and the newest-first ordering. The text search is modelled
  as the SQL the ORM emits: SQLite `LIKE '%x%'` without escaping, case-insensitive
  for ASCII letters only.
- **Summaries** (`aggregate.dfy`, `sorting.dfy`): the grand total, plus the sums
  grouped by category name (inner join), type, vendor (top ten, largest first) and
  month (oldest first). These always cover the whole store.
- **Dashboard and export** (`dashboard.dfy`, `export.dfy`): the two admin routes, the
  12-column CSV projection, and the fact that both routes list the same purchases.
- **Seeding** (`seed.dfy`): `seed_categories` and `seed_dev_users`, which insert a row
  only when it is absent.
- **Python and SQLite behaviour the routes rely on** (`text.dfy`, `numbers.dfy`,
  `dates.dfy`, `forms.dfy`): `str.strip`, `int()`, `str(n)`, `strptime('%Y-%m-%d')`,
  `str(date)` and `request.form.get`.

Each route is a function from the store and the request to an outcome. Routes that
write also return the new store. The password hasher, `float()` and the saved
attachment path are parameters, because they are not modelled.

The text search hands the search text to SQL `LIKE` unescaped, so `%` and `_` in it
act as wildcards. `Filter.SearchIsSubstring` proves that for search text without
them the search is a substring test ignoring ASCII case. `Like.UnderscoreIsWildcard`
shows a search that matches without a substring.

## Model

| member | source | states |
|---|---|---|
| Models.NextId | models.py:11 | A new primary key is above every id in the table. It is 1 for an empty table, otherwise one more than the largest id, negative ids included. |
| Models.FindUser | app.py:71-73 | A found user is a row of `users` with the requested id. No user is found only when no row has that id. |
| Models.FindCategory | models.py:53 | A found category is a row with the id of the foreign key. None is found for a null key or a key no row has. |
| Models.EmptyStoreValid | app.py:76 | The freshly created, empty tables satisfy every constraint of the store. |
| Text.Strip | routes.py:49 | The result is the input with whitespace cut from both ends. Whitespace is Python's `isspace` set. The result neither starts nor ends with whitespace. |
| Text.StripExact | routes.py:49 | Text without whitespace at its ends is unchanged by stripping. Stripping leaves nothing exactly when the text is all whitespace. |
| Text.Lower | routes.py:14 | Same length; each character is lower-cased if it is an ASCII capital and kept otherwise. |
| Text.LastIndexOf | routes.py:14 | None exactly when the character is absent; otherwise the position of that character with no later occurrence. |
| Numbers.ParseInt | routes.py:144 | Only text made of an optional leading sign, digits and underscores parses. After the sign, the text must be digit groups: no leading, trailing or doubled underscore. The value is the digits with the underscores dropped, read in decimal and negated after a minus sign. Leading zeros are allowed. |
| Numbers.ParseIntSigned | routes.py:144 | `+5` reads as 5 and `-7` as -7. |
| Numbers.ParseIntGrouped | routes.py:144 | `1_000` reads as 1000. |
| Numbers.ParseIntLeadingZeros | routes.py:144 | `007` reads as 7. |
| Numbers.ParseIntRefuses | routes.py:144-149 | `12a`, the empty text, a lone `-`, `1__0`, `_1`, `1_`, `1 2` and `+-1` are refused. |
| Numbers.IntToString | routes.py:370-376 | `str(n)` of a non-negative integer is non-empty decimal digits whose value is `n`. A negative one is a minus sign followed by the digits of `-n`. There is no leading zero, except in `0` itself. |
| Numbers.ParseIntToString | routes.py:370-376 | Every integer's `str` rendering reads back through `int()` as the same integer. |
| Dates.ParseDate | routes.py:152 | A parsed date is a real calendar day of years 1 to 9999. Its text is 8 to 10 characters long. It spells the date: four year digits, a dash, the `%m` token of the month, a dash, and the `%d` token of the day. |
| Dates.ParseDateExactly | routes.py:152-155 | A text parses to a date exactly when it spells that date and the date is a real calendar day. |
| Dates.ParseDateRefusesMonth | routes.py:152-155 | `2024-13-01` is refused. |
| Dates.ParseDateRefusesDay | routes.py:152-155 | `2023-02-29` is refused, because 2023 is not a leap year. |
| Dates.ParseDateUnpadded | routes.py:152 | `2024-1-5` reads as 5 January 2024. |
| Dates.OnOrBeforeTotalOrder | routes.py:260 | Chronological order is total, antisymmetric and transitive. |
| Dates.FormatDate | routes.py:371 | A date renders as ten characters, YYYY-MM-DD: four digits, a dash, two digits, a dash and two digits, so month and day are zero-padded. |
| Dates.ParseFormatDate | routes.py:371 | A rendered date parses back to the same date. |
| Access.CurrentUser | app.py:71-73 | The request's user is a row of `users` whose id is the session's id. A session without such a row is anonymous, and a session whose id some row has is never anonymous. |
| Access.SessionLoadsItsUser | app.py:71-73 | With unique user ids, a stored user's session loads exactly that user. The request is anonymous exactly when there is no session or no row has its id. |
| Access.Authorize | routes.py:16-28 | The handler runs exactly when a user is logged in and has the required role or `dev`. Anonymous requests, and only those, go to the login page. |
| Access.RolesSeparated | routes.py:20-26 | For the three known roles: admin pages admit everyone but shoppers, the upload page everyone but admins, and the dev page only developers. |
| Registration.NormaliseRole | routes.py:58-59 | The stored role is always shopper or admin. A requested shopper or admin role is kept; any other role becomes shopper. |
| Registration.Register | routes.py:43-77 | Registration succeeds exactly when no one is logged in, the three fields are non-empty, and the username and email are both unused. Failures are reported in the handler's order: a logged-in user first, then a missing field, then a taken username, then a taken email. On success it adds one user, never a developer, and keeps the store valid. |
| Registration.AddUserKeepsValid | models.py:11-15 | A user with a fresh id, username and email and a known role can be added without breaking any constraint or link. |
| Upload.AllowedFile | routes.py:13-14 | True exactly when the name has a dot and the lower-cased text after its last dot is an allowed extension. |
| Upload.AllowedFileIgnoresCase | routes.py:14 | `receipt.PDF` is accepted. |
| Upload.AllowedFileUsesLastDot | routes.py:14 | `scan.pdf.zip` is refused, because only the last extension counts. |
| Upload.AllowedFileNeedsDot | routes.py:14 | `pdf` is refused, because a name without a dot has no extension. |
| Upload.Validate | routes.py:131-170 | An accepted form has positive amount and quantity and a valid date, and keeps the submitted text fields. The checks run in the handler's order, and the first failing one names the error. Missing field: a required field is empty. Bad amount: the fields are given but `float` fails or gives at most 0. Bad quantity: the amount passed but `int` fails or gives at most 0. Bad date: the quantity passed but `strptime` fails. Bad file type: the date passed but an attachment's extension is not allowed. Validation never reports the write failure. |
| Upload.ValidateAcceptsExactly | routes.py:131-155 | A form is accepted exactly when it passes every check. The accepted values are the ones `float`, `int` and `strptime` produced. |
| Upload.CategoryReference | routes.py:180 | Empty category text stores no category. Otherwise the write can go ahead exactly when the text is an integer that fits SQLite's 64-bit INTEGER, and the stored key is that integer. A failure is the generic upload error of the `except` branch. |
| Upload.Commit | routes.py:172-214 | The write succeeds exactly when nothing faults, the category text is empty or a 64-bit integer, and the quantity fits 64 bits. It then adds one purchase by the user and one `create` entry pointing at it, and nothing else. |
| Upload.Upload | routes.py:119-214 | An upload succeeds exactly when the form passes every check, the quantity fits 64 bits, and the write does not fail. The stored purchase carries the parsed values, including `int(category_id) if category_id else None` as its category, and satisfies the CHECK constraints. A form that fails a check gets that check's error; a form that passes every check can fail only with the write error. |
| Upload.UploadKeepsLinked | routes.py:172-206 | After an upload by an existing user, every purchase and audit entry still points at existing rows. |
| Upload.CommitKeepsValid | models.py:42-64 | A committed draft keeps all constraints of the store, including unique purchase and audit ids. |
| Upload.UploadKeepsValid | models.py:61-64 | A successful upload by a user of the store keeps the store valid. |
| Upload.FormDefaults | routes.py:123-129 | An omitted quantity reads as 1 and an omitted type as `product`. The paid flag is 1 exactly when the box was sent with a non-empty value and 0 otherwise, so an unticked box stores 0, not the column default 1. |
| Upload.UploadRoute | routes.py:113-216 | Only a created upload changes the store. It needs a shopper or dev and adds exactly one purchase with the reported id. Redirects happen exactly when the gate refuses. Past the gate, the upload is created exactly when `Upload` succeeds for the current user, with `Upload`'s store; a rejection reports `Upload`'s error. |
| Filter.DateBound | routes.py:246-258 | A bound is used exactly when it parses as a date; a malformed bound is dropped. |
| Filter.ParseCriteria | routes.py:222-258 | Reading the criteria fails exactly when the category is given and is not an integer, or is an integer beyond 64 bits, with an error saying which. A given category is the integer `int()` reads. Every other criterion is taken as given or dropped. |
| Filter.Select | routes.py:229-258 | Exactly the matching purchases are kept, each as often as it occurs in the store; non-matching purchases do not occur. The result is the whole store when everything matches. |
| Filter.NewerFirstIsTotalPreorder | routes.py:260 | Newest-first is a total preorder, so sorting by it is well defined. |
| Filter.Query | routes.py:229-260 | The listed purchases are exactly the matching ones, each as often as in the store, newest first. |
| Filter.NoCriteriaListsAll | routes.py:229-260 | With no criteria, every purchase is listed exactly once. |
| Filter.BadCategoryFails | routes.py:237-238 | A non-numeric category fails the request rather than being ignored. |
| Filter.MalformedDateIgnored | routes.py:246-258 | A date bound that does not parse gives the same result as leaving it out. |
| Filter.SearchIsSubstring | routes.py:231-235 | For search text without `%` or `_`, a purchase matches when the text occurs in its description or its vendor, ignoring ASCII case. The converse holds too. |
| Filter.EqualityCriteria | routes.py:237-244 | The category, vendor and type criteria each compare for equality: a purchase passes exactly when its column equals the given value. |
| Filter.BoundsInclusive | routes.py:246-256 | Both date bounds are inclusive: a purchase passes `date_from` exactly when it is not dated earlier, `date_to` exactly when it is not dated later, and a purchase dated on both bounds passes both. |
| Filter.MatchesEveryCriterion | routes.py:231-258 | A purchase matches the criteria exactly when it matches each criterion taken alone. |
| Filter.CriteriaIntersect | routes.py:229-258 | The combined list holds exactly the purchases listed under every single criterion. |
| Like.PercentMatchesAll | routes.py:233-234 | `%` alone matches every text. |
| Like.ContainsIsSubstring | routes.py:233-234 | For a pattern without wildcards, `contains` holds exactly when the text occurs at some position, ignoring ASCII case. |
| Like.UnderscoreIsWildcard | routes.py:233-234 | Searching for `_` matches `Pen`, although `Pen` contains no underscore. |
| Sorting.Sort | routes.py:260 | The result is a permutation of the input, ordered by the given preorder. |
| Aggregate.Group | routes.py:266-281 | `GROUP BY` gives at most one row per key. |
| Aggregate.GroupKeys | routes.py:266-281 | A key has a row exactly when some purchase belongs to that group. |
| Aggregate.GroupTotals | routes.py:266-281 | Each row holds the sum of `amount * quantity` over its group's purchases. |
| Aggregate.GroupSum | routes.py:266-281 | The rows add up to the sum over the purchases that belong to some group. |
| Aggregate.GroupCorrect | routes.py:266-281 | The grouping is complete and exact: one row per group that occurs, no other rows, per-group sums, and a matching overall sum. |
| Aggregate.CategoryTotals | routes.py:266-269 | A category name has a row exactly when some purchase's category has that name, with no name twice, and each row holds that category's spend. Purchases without a category are left out. |
| Aggregate.TypeTotals | routes.py:278-281 | A type has a row exactly when some purchase has that type, with no type twice, and each row holds that type's spend. |
| Aggregate.VendorRanking | routes.py:271-276 | The vendor rows, largest total first, are a permutation of the grouped vendor rows. |
| Aggregate.VendorTotals | routes.py:271-276 | At most ten rows, in non-increasing order, forming a prefix of the ranking (all of it when there are fewer than ten). No listed vendor has a smaller total than one left out. |
| Aggregate.EarlierMonthIsTotalPreorder | routes.py:287 | Year-then-month order is a total preorder. |
| Aggregate.MonthlyTotals | routes.py:283-287 | The monthly rows are a permutation of the grouped month rows, strictly ascending by year and month, so no month appears twice. |
| Aggregate.LineTotalPositive | models.py:61-64 | Under the CHECK constraints, every `amount * quantity` is positive. |
| Aggregate.TotalSign | routes.py:262-264 | The total spend is 0 for an empty store and positive otherwise. |
| Aggregate.SummariesAddUp | routes.py:262-287 | Type, vendor and monthly rows each add up to the total spend. Category rows add up to at most that, and to exactly that when every purchase has a category. |
| Dashboard.Vendors | routes.py:290 | Every vendor of the store appears once, and nothing else. |
| Dashboard.DashboardRoute | routes.py:218-310 | The gate redirects exactly when access is refused. Past it, the request fails exactly when the category is given and is not a 64-bit integer. Otherwise the page lists the filter's result. The summaries, categories and vendors come from the whole store whatever the filter. |
| Dashboard.UnfilteredDashboard | routes.py:229-264 | With no criteria, an admin sees every purchase exactly once, and the type rows add up to the total spend. |
| Export.Cells | routes.py:369-382 | A row has exactly one field per header column, and each field is the value the row holds for the column named in its header. |
| Export.LineOf | routes.py:364-382 | Each field of a row is the purchase's value. The category shows `N/A` without a category, paid shows `Yes` when the flag is truthy and `No` otherwise, and notes show empty when null. |
| Export.LineReadsBack | routes.py:370-376 | The id, date and quantity fields read back as the purchase's values. |
| Export.PurchaseRow | routes.py:364-382 | A row fails exactly when the uploader is missing, and otherwise is that purchase's row. |
| Export.ExportRows | routes.py:364-382 | The rows succeed exactly when every uploader exists. There is then one row per purchase, in order; otherwise the error names a listed purchase. |
| Export.ExportRoute | routes.py:312-390 | The download redirects exactly when the admin gate refuses. Past the gate, it fails with the criterion error exactly when the filter fails. It gives a CSV exactly when the filter succeeds and every listed purchase's uploader exists. The CSV has the fixed header and one row per listed purchase. |
| Export.ExportGateMatchesDashboard | routes.py:312-354 | The export redirects exactly when the dashboard does, and fails on a bad category whenever the dashboard does. |
| Export.ExportListsDashboard | routes.py:316-364 | A CSV has the fixed header, and its rows are the rows of exactly the purchases the dashboard lists for the same request, in the same order. |
| Export.ExportSucceedsWhenLinked | routes.py:364-381 | When every purchase's uploader exists, the export produces a CSV whenever the dashboard shows a page. |
| Seed.SeedCategory | app.py:17-20 | Afterwards the name is present. An existing name changes nothing; a new one appends one category with an empty description and keeps the rest. |
| Seed.SeedCategoryList | app.py:17-20 | The categories there before are kept, unchanged and in place. |
| Seed.SeedCategories | app.py:9-22 | Only the categories change, and the existing ones are kept. |
| Seed.SeedCategoryKeepsValid | models.py:33-34 | Seeding one name keeps category ids and names unique. |
| Seed.SeedCategoryListNames | app.py:17-20 | After seeding, a name is present exactly when it was there before or was seeded. The table stays valid. |
| Seed.SeedCategoryListPresent | app.py:18 | Seeding names that are all present changes nothing. |
| Seed.SeedCategoriesProperties | app.py:9-22 | The store stays valid and all four starter categories are present. Seeding a second time changes nothing. |
| Seed.SeedUser | app.py:47-54 | An existing username changes nothing. A new username with an email in use fails. Otherwise one user is appended with the account's username, email, role and hashed password. |
| Seed.SeedUserList | app.py:46-54 | The users there before are kept, unchanged and in place. |
| Seed.SeedDevUsers | app.py:24-56 | Only the users change, and the existing ones are kept. |
| Seed.SeedUserKeepsValid | models.py:11-15 | Adding an account whose username and email are new keeps the users table valid. |
| Seed.SeedUserListProperties | app.py:46-54 | After seeding, every account's username is present and the users stay valid. |
| Seed.SeedUserListPresent | app.py:47 | Seeding accounts whose usernames all exist changes nothing. |
| Seed.SeedUserListFails | app.py:46-56 | Seeding accounts that are distinct from each other fails exactly when one has a new username but an email already in use. |
| Seed.SeedDevUsersProperties | app.py:24-56 | The store stays valid and the three development usernames are present. Seeding a second time changes nothing. |
| Seed.SeedDevUsersFails | models.py:13 | Seeding the development accounts fails exactly when one of them would reuse an existing email under a new username. |

## Left out

- The routes model a POST that has passed `CSRFProtect`'s token check (app.py:64) and is within the 5 MB `MAX_CONTENT_LENGTH` (config.py:10). A POST with a missing or bad token gets 400, and a larger body gets 413, before any handler or role gate runs. The GET of `/upload` and `/register`, which only renders the empty form, is not modelled.
- Flask plumbing is not modelled: templates, flash messages, the redirect URLs, and the `index`, `login`, `logout` and `dev_home` routes. A route's outcome is a datatype instead.
- Password hashing is a parameter `hash: string -> string`. Real hashes are salted and random, so two runs would store different strings.
- `secure_filename`, `file.save` and the timestamped file name are not modelled. The stored attachment path is an input (`savedPath`), and a failure while writing is an input flag (`fault`).
- `csv.writer` quoting, UTF-8 encoding and `send_file` are not modelled. A CSV row is a record of fields.
- Export.Cells: money cells keep the real amount instead of the `$x.xx` text, because float formatting and rounding are not modelled.
- `float()` is a parameter of the upload environment, because float parsing and IEEE arithmetic are not modelled. Amounts are Dafny reals, and `amount * quantity` is exact.
- Upload.Validate: `float()` yields a real, so the NaN and infinite amounts Python can parse are not modelled. The handler lets NaN through, because `nan <= 0` is false; what the store then does with it is not modelled.
- Numbers.ParseInt: accepts ASCII digits only; Python's `int()` also takes other Unicode decimal digits.
- Numbers.ParseInt: the limit of 4300 digits that newer Python versions put on `int()` of text is not modelled, because it depends on the interpreter version. A quantity that long is far beyond 64 bits, so the upload still fails, at the write rather than at validation.
- Upload.Validate: does not reject quantity text of more than 4300 digits, for the same reason; `Upload.Commit` refuses such a quantity instead.
- Models.NextId: when the largest id is already the largest 64-bit integer, SQLite picks an unused id at random; the model keeps counting upwards.
- Dates.ParseDate: the year, month and day take ASCII digits only; `strptime`'s `\d` also matches other Unicode digits.
- Text.Lower: lower-cases ASCII letters only; Python's `str.lower()` also folds other scripts. This can change which extensions `allowed_file` accepts for non-ASCII names.
- The JSON text of the audit entry's `changes` column is not modelled. The entry keeps the submitted values as a record.
- `created_at` and the audit `timestamp` columns are left out, because they are clock readings.
- `main.py` (free-port search) is not part of this model, and neither is `config.py` beyond the size limit named above. The allowed extensions appear as a constant and as a parameter.
- Transactions and `flush` are not modelled. An upload is one atomic step from store to store.
- Aggregate.VendorTotals: ties in a total are kept in first-appearance order, while SQL leaves their order open. The same holds for purchases on the same date in `Filter.Query`.
- Aggregate.Group: rows are listed in order of first appearance. The category and type queries have no `ORDER BY`, so the source promises no order.
- Export.ExportRoute: requires every stored date to be a valid calendar day. The `Date` column holds `datetime.date` values, which cannot be anything else.
- Filter.SearchIsSubstring: holds only for search text without `%` or `_`. The source passes those characters to `LIKE` as wildcards.

=== FILE: access.dfy ===
/** Who may run a handler: `login_required` followed by `role_required(role)`. */
module Access {

  import opened Wrappers
  import opened Models

  /** What the gate does with a request: run the handler, or redirect. */
  datatype Decision = Proceed | ToLogin | ToIndex

  /** Flask-Login's `current_user`: the session's user id loaded from the store;
      an id with no user behind it leaves the request anonymous. */
  function CurrentUser(s: Store, session: Option<int>): (r: Option<User>)
    ensures r.Some? ==> r.value in s.users && session == Some(r.value.id)
    ensures session.Some? && (exists i :: 0 <= i < |s.users| && s.users[i].id == session.value) ==> r.Some?
  {
    if session.None? then None else FindUser(s.users, session.value)
  }

  /** With unique user ids, the session of a user of the store loads exactly that
      user, and the request is anonymous only when no user has the session's id. */
  lemma SessionLoadsItsUser(s: Store, u: User, session: Option<int>)
    requires ValidUsers(s.users)
    ensures u in s.users && session == Some(u.id) ==> CurrentUser(s, session) == Some(u)
    ensures CurrentUser(s, session).None? <==>
      session.None? || forall i :: 0 <= i < |s.users| ==> s.users[i].id != session.value
  {
    if u in s.users && session == Some(u.id) {
      var k :| 0 <= k < |s.users| && s.users[k] == u;
      var w := CurrentUser(s, session).value;
      var j :| 0 <= j < |s.users| && s.users[j] == w;
      assert s.users[j].id == s.users[k].id;
    }
  }

  /** The access decision for a page restricted to `required`: anonymous requests go
      to the login page, the wrong role to the index, and `dev` passes every gate. */
  function Authorize(current: Option<User>, required: string): (d: Decision)
    ensures d == Proceed <==> current.Some? && (current.value.role == required || current.value.role == DevRole)
    ensures d == ToLogin <==> current.None?
  {
    match current
    case None => ToLogin
    case Some(u) => if u.role != required && u.role != DevRole then ToIndex else Proceed
  }

  /** The three roles are separated: only admins (and devs) reach the admin pages,
      only shoppers (and devs) the upload page. */
  lemma RolesSeparated(u: User)
    requires KnownRole(u.role)
    ensures Authorize(Some(u), AdminRole) == Proceed <==> u.role != ShopperRole
    ensures Authorize(Some(u), ShopperRole) == Proceed <==> u.role != AdminRole
    ensures Authorize(Some(u), DevRole) == Proceed <==> u.role == DevRole
  {
  }
}

=== FILE: aggregate.dfy ===
/** The five dashboard summaries: `SUM(amount * quantity)` overall and grouped by
    category name, vendor, type and month, always over every purchase in the store. */
module Aggregate {

  import opened Wrappers
  import opened Models
  import opened Dates
  import opened Sorting

  /** One line of a grouped sum. */
  datatype Row<K> = Row(key: K, total: real)

  /** The sum of the line totals of `ps`; 0 for none (`scalar() or 0`). */
  function Total(ps: seq<Purchase>): real
  {
    if ps == [] then 0.0 else Total(ps[..|ps| - 1]) + LineTotal(ps[|ps| - 1])
  }

  /** The sum of the line totals of the purchases whose group is `k`. */
  function TotalFor<K(==,!new)>(ps: seq<Purchase>, group: Purchase -> Option<K>, k: K): real
  {
    if ps == [] then 0.0
    else
      var last := ps[|ps| - 1];
      TotalFor(ps[..|ps| - 1], group, k) + (if group(last) == Some(k) then LineTotal(last) else 0.0)
  }

  /** The sum of the line totals of the purchases that belong to some group. */
  function GroupedTotal<K>(ps: seq<Purchase>, group: Purchase -> Option<K>): real
  {
    if ps == [] then 0.0
    else
      var last := ps[|ps| - 1];
      GroupedTotal(ps[..|ps| - 1], group) + (if group(last).Some? then LineTotal(last) else 0.0)
  }

  predicate HasKey<K(==)>(rows: seq<Row<K>>, k: K)
  {
    exists i :: 0 <= i < |rows| && rows[i].key == k
  }

  predicate InSomeGroup<K(==)>(ps: seq<Purchase>, group: Purchase -> Option<K>, k: K)
  {
    exists i :: 0 <= i < |ps| && group(ps[i]) == Some(k)
  }

  function SumRows<K>(rows: seq<Row<K>>): real
  {
    if rows == [] then 0.0 else SumRows(rows[..|rows| - 1]) + rows[|rows| - 1].total
  }

  /** Raising one row's total by `v` raises the sum by `v`. */
  lemma {:induction false} SumRowsUpdate<K>(rows: seq<Row<K>>, i: nat, v: real)
    requires i < |rows|
    ensures SumRows(rows[i := rows[i].(total := rows[i].total + v)]) == SumRows(rows) + v
  {
    var n := |rows| - 1;
    var r := rows[i := rows[i].(total := rows[i].total + v)];
    if i < n {
      assert r[..n] == rows[..n][i := rows[i].(total := rows[i].total + v)];
      SumRowsUpdate(rows[..n], i, v);
    } else {
      assert r[..n] == rows[..n];
    }
  }

  /** Where the row of `k` is. */
  function KeyIndex<K(==)>(rows: seq<Row<K>>, k: K): (r: Option<nat>)
    ensures r.Some? ==> r.value < |rows| && rows[r.value].key == k
    ensures r.None? <==> !HasKey(rows, k)
  {
    if rows == [] then None
    else if rows[|rows| - 1].key == k then Some(|rows| - 1)
    else
      var r := KeyIndex(rows[..|rows| - 1], k);
      assert HasKey(rows, k) ==> HasKey(rows[..|rows| - 1], k) by {
        if HasKey(rows, k) {
          var i :| 0 <= i < |rows| && rows[i].key == k;
          assert rows[..|rows| - 1][i].key == k;
        }
      }
      r
  }

  /** Adds `v` to the row of `k`, or appends a row for `k`. */
  function AddTo<K(==)>(rows: seq<Row<K>>, k: K, v: real): (r: seq<Row<K>>)
    ensures SumRows(r) == SumRows(rows) + v
  {
    match KeyIndex(rows, k)
    case Some(i) =>
      SumRowsUpdate(rows, i, v);
      rows[i := rows[i].(total := rows[i].total + v)]
    case None =>
      assert (rows + [Row(k, v)])[..|rows|] == rows;
      rows + [Row(k, v)]
  }

  /** The rows of `AddTo` keep their keys, at most one row is appended (for `k`), and
      distinct keys stay distinct. */
  lemma AddToKeys<K(!new)>(rows: seq<Row<K>>, k: K, v: real)
    requires DistinctBy(rows, (row: Row<K>) => row.key)
    ensures DistinctBy(AddTo(rows, k, v), (row: Row<K>) => row.key)
    ensures forall key :: HasKey(AddTo(rows, k, v), key) <==> HasKey(rows, key) || key == k
    ensures |AddTo(rows, k, v)| == |rows| || (|AddTo(rows, k, v)| == |rows| + 1 && !HasKey(rows, k))
    ensures forall i :: 0 <= i < |rows| ==> AddTo(rows, k, v)[i].key == rows[i].key
    ensures forall i :: 0 <= i < |AddTo(rows, k, v)| ==>
      AddTo(rows, k, v)[i].total == (if i < |rows| then rows[i].total else 0.0) + (if AddTo(rows, k, v)[i].key == k then v else 0.0)
  {
    var r := AddTo(rows, k, v);
    match KeyIndex(rows, k)
    case Some(j) =>
      forall key ensures HasKey(r, key) <==> HasKey(rows, key) || key == k {
        if HasKey(r, key) {
          var i :| 0 <= i < |r| && r[i].key == key;
          assert rows[i].key == key;
        }
        if HasKey(rows, key) {
          var i :| 0 <= i < |rows| && rows[i].key == key;
          assert r[i].key == key;
        }
      }
    case None =>
      forall key ensures HasKey(r, key) <==> HasKey(rows, key) || key == k {
        if HasKey(r, key) && key != k {
          var i :| 0 <= i < |r| && r[i].key == key;
          assert rows[i].key == key;
        }
        if HasKey(rows, key) {
          var i :| 0 <= i < |rows| && rows[i].key == key;
          assert r[i].key == key;
        }
        if key == k {
          assert r[|rows|].key == key;
        }
      }
  }

  /** `GROUP BY`: one row per group that occurs, in order of first occurrence, holding
      the sum of that group's line totals. Purchases in no group are left out. */
  function Group<K(==,!new)>(ps: seq<Purchase>, group: Purchase -> Option<K>): (r: seq<Row<K>>)
    ensures DistinctBy(r, (row: Row<K>) => row.key)
  {
    if ps == [] then []
    else
      var rows := Group(ps[..|ps| - 1], group);
      var last := ps[|ps| - 1];
      match group(last)
      case None => rows
      case Some(k) =>
        AddToKeys(rows, k, LineTotal(last));
        AddTo(rows, k, LineTotal(last))
  }

  /** A group occurs in `ps` exactly when it occurs before the last purchase or is
      the last purchase's group. */
  lemma InSomeGroupStep<K(!new)>(ps: seq<Purchase>, group: Purchase -> Option<K>)
    requires ps != []
    ensures forall k :: InSomeGroup(ps, group, k) <==>
      InSomeGroup(ps[..|ps| - 1], group, k) || group(ps[|ps| - 1]) == Some(k)
  {
    var init := ps[..|ps| - 1];
    forall k ensures InSomeGroup(ps, group, k) <==> InSomeGroup(init, group, k) || group(ps[|ps| - 1]) == Some(k) {
      if InSomeGroup(ps, group, k) && group(ps[|ps| - 1]) != Some(k) {
        var i :| 0 <= i < |ps| && group(ps[i]) == Some(k);
        assert group(init[i]) == Some(k);
      }
      if InSomeGroup(init, group, k) {
        var i :| 0 <= i < |init| && group(init[i]) == Some(k);
        assert group(ps[i]) == Some(k);
      }
    }
  }

  /** Every group that occurs gets a row, and no other row appears. */
  lemma {:induction false} GroupKeys<K(!new)>(ps: seq<Purchase>, group: Purchase -> Option<K>)
    ensures forall k :: HasKey(Group(ps, group), k) <==> InSomeGroup(ps, group, k)
  {
    if ps != [] {
      var init := ps[..|ps| - 1];
      GroupKeys(init, group);
      InSomeGroupStep(ps, group);
      match group(ps[|ps| - 1])
      case None =>
      case Some(k) => AddToKeys(Group(init, group), k, LineTotal(ps[|ps| - 1]));
    }
  }

  /** Each row holds the sum of the line totals of its group. */
  lemma {:induction false} GroupTotals<K(!new)>(ps: seq<Purchase>, group: Purchase -> Option<K>)
    ensures forall i :: 0 <= i < |Group(ps, group)| ==>
      Group(ps, group)[i].total == TotalFor(ps, group, Group(ps, group)[i].key)
  {
    if ps != [] {
      var init := ps[..|ps| - 1];
      var last := ps[|ps| - 1];
      var rows := Group(init, group);
      GroupTotals(init, group);
      match group(last)
      case None =>
      case Some(k) =>
        var r := AddTo(rows, k, LineTotal(last));
        AddToKeys(rows, k, LineTotal(last));
        forall i | 0 <= i < |r| ensures r[i].total == TotalFor(ps, group, r[i].key) {
          if i == |rows| {
            GroupKeys(init, group);
            TotalForAbsent(init, group, k);
          }
        }
    }
  }

  /** The rows add up to the sum over the purchases that belong to a group. */
  lemma {:induction false} GroupSum<K(!new)>(ps: seq<Purchase>, group: Purchase -> Option<K>)
    ensures SumRows(Group(ps, group)) == GroupedTotal(ps, group)
  {
    if ps != [] {
      GroupSum(ps[..|ps| - 1], group);
    }
  }

  /** `GROUP BY` is right: every group that occurs gets exactly one row, no other row
      appears, each row holds the sum over its group, and the rows add up to the sum
      over the grouped purchases. */
  lemma GroupCorrect<K(!new)>(ps: seq<Purchase>, group: Purchase -> Option<K>)
    ensures forall k :: HasKey(Group(ps, group), k) <==> InSomeGroup(ps, group, k)
    ensures forall i :: 0 <= i < |Group(ps, group)| ==>
      Group(ps, group)[i].total == TotalFor(ps, group, Group(ps, group)[i].key)
    ensures SumRows(Group(ps, group)) == GroupedTotal(ps, group)
  {
    GroupKeys(ps, group);
    GroupTotals(ps, group);
    GroupSum(ps, group);
  }

  lemma {:induction false} TotalForAbsent<K(!new)>(ps: seq<Purchase>, group: Purchase -> Option<K>, k: K)
    requires !InSomeGroup(ps, group, k)
    ensures TotalFor(ps, group, k) == 0.0
  {
    if ps != [] {
      var init := ps[..|ps| - 1];
      forall i | 0 <= i < |init| ensures group(init[i]) != Some(k) {
        assert init[i] == ps[i];
      }
      TotalForAbsent(init, group, k);
    }
  }

  /** The key of the category totals: the name of the purchase's category, when its
      foreign key finds one (the inner join of `categories` with `purchases`). */
  function CategoryName(categories: seq<Category>, p: Purchase): Option<string>
  {
    match FindCategory(categories, p.categoryId)
    case None => None
    case Some(c) => Some(c.name)
  }

  /** One row per category name that some purchase's foreign key finds, holding the
      sum over the purchases of that category. */
  function CategoryTotals(s: Store): (r: seq<Row<string>>)
    ensures forall k :: HasKey(r, k) <==> InSomeGroup(s.purchases, (p: Purchase) => CategoryName(s.categories, p), k)
    ensures forall i :: 0 <= i < |r| ==>
      r[i].total == TotalFor(s.purchases, (p: Purchase) => CategoryName(s.categories, p), r[i].key)
    ensures forall i, j :: 0 <= i < j < |r| ==> r[i].key != r[j].key
  {
    GroupCorrect(s.purchases, (p: Purchase) => CategoryName(s.categories, p));
    Group(s.purchases, (p: Purchase) => CategoryName(s.categories, p))
  }

  /** One row per purchase type that occurs, holding the sum over that type. */
  function TypeTotals(s: Store): (r: seq<Row<string>>)
    ensures forall t :: HasKey(r, t) <==> exists i :: 0 <= i < |s.purchases| && s.purchases[i].purchaseType == t
    ensures forall i :: 0 <= i < |r| ==>
      r[i].total == TotalFor(s.purchases, (p: Purchase) => Some(p.purchaseType), r[i].key)
    ensures forall i, j :: 0 <= i < j < |r| ==> r[i].key != r[j].key
  {
    var byType := (p: Purchase) => Some(p.purchaseType);
    GroupCorrect(s.purchases, byType);
    assert forall t :: InSomeGroup(s.purchases, byType, t) <==>
      exists i :: 0 <= i < |s.purchases| && s.purchases[i].purchaseType == t;
    Group(s.purchases, byType)
  }

  /** How many vendors the dashboard lists. */
  const VendorLimit: nat := 10

  /** `ORDER BY SUM(...) DESC`: a row with a larger total comes first. */
  predicate LargerFirst(a: Row<string>, b: Row<string>)
  {
    a.total >= b.total
  }

  /** Every vendor's total, largest first. */
  function VendorRanking(s: Store): (r: seq<Row<string>>)
    ensures multiset(r) == multiset(Group(s.purchases, (p: Purchase) => Some(p.vendor)))
    ensures SortedBy(r, LargerFirst)
  {
    Sort(Group(s.purchases, (p: Purchase) => Some(p.vendor)), LargerFirst)
  }

  /** The ten vendors with the largest totals, largest first. */
  function VendorTotals(s: Store): (r: seq<Row<string>>)
    ensures |r| <= VendorLimit && |r| <= |VendorRanking(s)|
    ensures forall i, j :: 0 <= i < j < |r| ==> r[i].total >= r[j].total
    ensures r == VendorRanking(s)[..|r|]
    ensures |r| < VendorLimit ==> r == VendorRanking(s)
    ensures forall i, j :: 0 <= i < |r| <= j < |VendorRanking(s)| ==> r[i].total >= VendorRanking(s)[j].total
  {
    var ranking := VendorRanking(s);
    if |ranking| <= VendorLimit then ranking else ranking[..VendorLimit]
  }

  /** `ORDER BY year, month`. */
  predicate EarlierMonth(a: Row<Month>, b: Row<Month>)
  {
    MonthOnOrBefore(a.key, b.key)
  }

  lemma EarlierMonthIsTotalPreorder()
    ensures TotalPreorder(EarlierMonth)
  {
  }

  /** One row per month with purchases, oldest month first; no month twice. */
  function MonthlyTotals(s: Store): (r: seq<Row<Month>>)
    ensures multiset(r) == multiset(Group(s.purchases, (p: Purchase) => Some(MonthOf(p.dateCollected))))
    ensures forall i, j :: 0 <= i < j < |r| ==> MonthOnOrBefore(r[i].key, r[j].key) && r[i].key != r[j].key
  {
    EarlierMonthIsTotalPreorder();
    var rows := Group(s.purchases, (p: Purchase) => Some(MonthOf(p.dateCollected)));
    SortKeepsDistinct(rows, EarlierMonth, (row: Row<Month>) => row.key);
    Sort(rows, EarlierMonth)
  }

  /** The five summaries of the dashboard. */
  datatype Summary = Summary(
    totalSpend: real,
    categoryTotals: seq<Row<string>>,
    vendorTotals: seq<Row<string>>,
    typeTotals: seq<Row<string>>,
    monthlyTotals: seq<Row<Month>>)

  function Summarize(s: Store): Summary
  {
    Summary(Total(s.purchases), CategoryTotals(s), VendorTotals(s), TypeTotals(s), MonthlyTotals(s))
  }

  /** Dropping row `j` lowers the sum by that row's total. */
  lemma {:induction false} SumRowsRemove<K>(rows: seq<Row<K>>, j: nat)
    requires j < |rows|
    ensures SumRows(rows) == SumRows(rows[..j] + rows[j + 1..]) + rows[j].total
  {
    var n := |rows| - 1;
    if j == n {
      assert rows[..j] + rows[j + 1..] == rows[..n];
    } else {
      var init := rows[..n];
      SumRowsRemove(init, j);
      var dropped := rows[..j] + rows[j + 1..];
      assert dropped[..|dropped| - 1] == init[..j] + init[j + 1..];
      assert dropped[|dropped| - 1] == rows[n];
    }
  }

  /** The sum of the rows does not depend on their order. */
  lemma {:induction false} SumRowsPermutation<K>(a: seq<Row<K>>, b: seq<Row<K>>)
    requires multiset(a) == multiset(b)
    ensures SumRows(a) == SumRows(b)
  {
    if a != [] {
      var n := |a| - 1;
      var x := a[n];
      assert multiset(a) == multiset(a[..n]) + multiset{x} by {
        assert a == a[..n] + [x];
      }
      assert x in multiset(b);
      var j :| 0 <= j < |b| && b[j] == x;
      var rest := b[..j] + b[j + 1..];
      assert multiset(b) == multiset(rest) + multiset{x} by {
        assert b == b[..j] + [x] + b[j + 1..];
      }
      assert multiset(a[..n]) == multiset(a) - multiset{x};
      assert multiset(rest) == multiset(b) - multiset{x};
      SumRowsPermutation(a[..n], rest);
      SumRowsRemove(b, j);
    } else {
      assert |multiset(b)| == 0;
    }
  }

  /** When every purchase belongs to a group, the grouped total is the grand total. */
  lemma {:induction false} GroupedTotalAll<K>(ps: seq<Purchase>, group: Purchase -> Option<K>)
    requires forall i :: 0 <= i < |ps| ==> group(ps[i]).Some?
    ensures GroupedTotal(ps, group) == Total(ps)
  {
    if ps != [] {
      GroupedTotalAll(ps[..|ps| - 1], group);
    }
  }

  /** With no negative line total, leaving purchases out cannot raise the sum. */
  lemma {:induction false} GroupedTotalAtMost<K>(ps: seq<Purchase>, group: Purchase -> Option<K>)
    requires forall i :: 0 <= i < |ps| ==> LineTotal(ps[i]) >= 0.0
    ensures GroupedTotal(ps, group) <= Total(ps)
  {
    if ps != [] {
      GroupedTotalAtMost(ps[..|ps| - 1], group);
    }
  }

  /** Under the schema's CHECK constraints every line total is positive. */
  lemma LineTotalPositive(p: Purchase)
    requires ValidPurchase(p)
    ensures LineTotal(p) > 0.0
  {
    assert p.quantity as real >= 1.0;
  }

  /** Total spend is 0 for no purchases and positive as soon as there is one. */
  lemma {:induction false} TotalSign(ps: seq<Purchase>)
    requires ValidPurchases(ps)
    ensures ps == [] ==> Total(ps) == 0.0
    ensures ps != [] ==> Total(ps) > 0.0
  {
    if ps != [] {
      var init := ps[..|ps| - 1];
      TotalSign(init);
      LineTotalPositive(ps[|ps| - 1]);
    }
  }

  /** The type, vendor and monthly rows each add up to the total spend; the category
      rows add up to at most that, short by the purchases whose category is missing. */
  lemma SummariesAddUp(s: Store)
    requires ValidPurchases(s.purchases)
    ensures SumRows(TypeTotals(s)) == Total(s.purchases)
    ensures SumRows(VendorRanking(s)) == Total(s.purchases)
    ensures SumRows(MonthlyTotals(s)) == Total(s.purchases)
    ensures SumRows(CategoryTotals(s)) <= Total(s.purchases)
    ensures (forall i :: 0 <= i < |s.purchases| ==> CategoryName(s.categories, s.purchases[i]).Some?) ==>
      SumRows(CategoryTotals(s)) == Total(s.purchases)
  {
    var byType := (p: Purchase) => Some(p.purchaseType);
    var byVendor := (p: Purchase) => Some(p.vendor);
    var byMonth := (p: Purchase) => Some(MonthOf(p.dateCollected));
    var byCategory := (p: Purchase) => CategoryName(s.categories, p);
    GroupCorrect(s.purchases, byType);
    GroupedTotalAll(s.purchases, byType);
    GroupCorrect(s.purchases, byVendor);
    GroupedTotalAll(s.purchases, byVendor);
    SumRowsPermutation(VendorRanking(s), Group(s.purchases, byVendor));
    GroupCorrect(s.purchases, byMonth);
    GroupedTotalAll(s.purchases, byMonth);
    SumRowsPermutation(MonthlyTotals(s), Group(s.purchases, byMonth));
    GroupCorrect(s.purchases, byCategory);
    forall i | 0 <= i < |s.purchases| ensures LineTotal(s.purchases[i]) >= 0.0 {
      LineTotalPositive(s.purchases[i]);
    }
    GroupedTotalAtMost(s.purchases, byCategory);
    if forall i :: 0 <= i < |s.purchases| ==> byCategory(s.purchases[i]).Some? {
      GroupedTotalAll(s.purchases, byCategory);
    }
  }
}

=== FILE: dashboard.dfy ===
/** The `/dashboard` page for admins: the filtered purchase list next to summaries
    that always cover the whole store. */
module Dashboard {

  import opened Wrappers
  import opened Models
  import opened Forms
  import Access
  import Filter
  import Text
  import opened Aggregate

  predicate HasVendor(ps: seq<Purchase>, v: string)
  {
    exists i :: 0 <= i < |ps| && ps[i].vendor == v
  }

  /** `SELECT DISTINCT vendor`: each vendor once, in order of first appearance. */
  function Vendors(ps: seq<Purchase>): (r: seq<string>)
    ensures forall v :: v in r <==> HasVendor(ps, v)
    ensures forall i, j :: 0 <= i < j < |r| ==> r[i] != r[j]
  {
    if ps == [] then []
    else
      var init := ps[..|ps| - 1];
      var rest := Vendors(init);
      var v := ps[|ps| - 1].vendor;
      assert forall w :: HasVendor(ps, w) <==> HasVendor(init, w) || w == v by {
        forall w ensures HasVendor(ps, w) <==> HasVendor(init, w) || w == v {
          if HasVendor(init, w) {
            var i :| 0 <= i < |init| && init[i].vendor == w;
            assert ps[i].vendor == w;
          }
          if w != v && HasVendor(ps, w) {
            var i :| 0 <= i < |ps| && ps[i].vendor == w;
            assert init[i].vendor == w;
          }
        }
      }
      if v in rest then rest else rest + [v]
  }

  /** Everything the page shows. `filters` echoes the stripped query-string values. */
  datatype View = View(
    purchases: seq<Purchase>,
    summary: Summary,
    categories: seq<Category>,
    vendors: seq<string>,
    filters: Filter.RawCriteria)

  /** A redirect from the gate, the failure of a non-numeric category, or the page. */
  datatype Page = Redirected(to: Access.Decision) | Failed(error: Filter.FilterError) | Shown(view: View)

  function DashboardRoute(s: Store, session: Option<int>, args: Form): (r: Page)
    ensures r.Redirected? <==> Access.Authorize(Access.CurrentUser(s, session), AdminRole) != Access.Proceed
    ensures r.Failed? <==>
      Access.Authorize(Access.CurrentUser(s, session), AdminRole) == Access.Proceed
      && Filter.BadCategory(Filter.ReadCriteria(args).category)
    ensures r.Shown? ==> Filter.Run(s, args) == Ok(r.view.purchases)
    ensures r.Shown? ==> r.view.summary == Summarize(s) && r.view.categories == s.categories
    ensures r.Shown? ==> forall v :: v in r.view.vendors <==> HasVendor(s.purchases, v)
  {
    match Access.Authorize(Access.CurrentUser(s, session), AdminRole)
    case Proceed =>
      (match Filter.Run(s, args)
       case Err(e) => Failed(e)
       case Ok(purchases) =>
         Shown(View(purchases, Summarize(s), s.categories, Vendors(s.purchases), Filter.ReadCriteria(args))))
    case other => Redirected(other)
  }

  /** An admin who gives no criteria sees every purchase exactly once, newest first,
      and a total spend that the type rows add up to. */
  lemma UnfilteredDashboard(s: Store, session: Option<int>)
    requires Valid(s)
    requires Access.CurrentUser(s, session).Some? && Access.CurrentUser(s, session).value.role == AdminRole
    ensures DashboardRoute(s, session, map[]).Shown?
    ensures multiset(DashboardRoute(s, session, map[]).view.purchases) == multiset(s.purchases)
    ensures SumRows(DashboardRoute(s, session, map[]).view.summary.typeTotals) == DashboardRoute(s, session, map[]).view.summary.totalSpend
  {
    var args: Form := map[];
    assert Filter.ReadCriteria(args) == Filter.RawCriteria("", "", "", "", "", "") by {
      Text.StripExact("");
    }
    Filter.NoCriteriaListsAll(s.purchases);
    SummariesAddUp(s);
  }
}

=== FILE: dates.dfy ===
/** Calendar dates as the store keeps them: parsed from request text with
    `datetime.strptime(text, '%Y-%m-%d')`, rendered with `str(date)`, and compared
    chronologically. */
module Dates {

  import opened Wrappers
  import opened Numbers
  import Text

  datatype Date = Date(year: int, month: int, day: int)

  /** A (year, month) pair, the key of the monthly totals. */
  datatype Month = Month(year: int, month: int)

  predicate IsLeapYear(y: int)
  {
    y % 4 == 0 && (y % 100 != 0 || y % 400 == 0)
  }

  function DaysInMonth(y: int, m: int): (r: int)
    requires 1 <= m <= 12
    ensures 28 <= r <= 31
  {
    if m == 2 then (if IsLeapYear(y) then 29 else 28)
    else if m == 4 || m == 6 || m == 9 || m == 11 then 30
    else 31
  }

  /** A date Python's `datetime.date` can hold: years 1 to 9999 of the proleptic
      Gregorian calendar. */
  predicate ValidDate(d: Date)
  {
    1 <= d.year <= 9999 && 1 <= d.month <= 12 && 1 <= d.day <= DaysInMonth(d.year, d.month)
  }

  /** Chronological order: `a` is the same day as `b` or an earlier one. */
  predicate OnOrBefore(a: Date, b: Date)
  {
    a.year < b.year
    || (a.year == b.year && (a.month < b.month || (a.month == b.month && a.day <= b.day)))
  }

  /** Chronological order on months. */
  predicate MonthOnOrBefore(a: Month, b: Month)
  {
    a.year < b.year || (a.year == b.year && a.month <= b.month)
  }

  function MonthOf(d: Date): Month
  {
    Month(d.year, d.month)
  }

  lemma OnOrBeforeTotalOrder(a: Date, b: Date, c: Date)
    ensures OnOrBefore(a, b) || OnOrBefore(b, a)
    ensures OnOrBefore(a, b) && OnOrBefore(b, a) ==> a == b
    ensures OnOrBefore(a, b) && OnOrBefore(b, c) ==> OnOrBefore(a, c)
  {
  }

  /** The `%m` directive: the regular expression `1[0-2]|0[1-9]|[1-9]`, which must
      cover the whole text between the two dashes. */
  function MonthToken(t: string): (r: Option<int>)
    ensures r.Some? ==> 1 <= r.value <= 12
    ensures r.Some? ==> 1 <= |t| <= 2 && AllDigits(t)
  {
    if |t| == 2 && t[0] == '1' && '0' <= t[1] <= '2' then Some(10 + DigitValue(t[1]))
    else if |t| == 2 && t[0] == '0' && '1' <= t[1] <= '9' then Some(DigitValue(t[1]))
    else if |t| == 1 && '1' <= t[0] <= '9' then Some(DigitValue(t[0]))
    else None
  }

  /** The `%d` directive: the regular expression `3[01]|[12]\d|0[1-9]|[1-9]| [1-9]`,
      which must cover the rest of the text. */
  function DayToken(t: string): (r: Option<int>)
    ensures r.Some? ==> 1 <= r.value <= 31
    ensures r.Some? ==> 1 <= |t| <= 2 && IsDigit(t[|t| - 1])
  {
    if |t| == 2 && t[0] == '3' && '0' <= t[1] <= '1' then Some(30 + DigitValue(t[1]))
    else if |t| == 2 && '1' <= t[0] <= '2' && IsDigit(t[1]) then Some(10 * DigitValue(t[0]) + DigitValue(t[1]))
    else if |t| == 2 && t[0] == '0' && '1' <= t[1] <= '9' then Some(DigitValue(t[1]))
    else if |t| == 1 && '1' <= t[0] <= '9' then Some(DigitValue(t[0]))
    else if |t| == 2 && t[0] == ' ' && '1' <= t[1] <= '9' then Some(DigitValue(t[1]))
    else None
  }

  /** `s` spells `d` in the `%Y-%m-%d` format: four digits of year, a dash, a month
      token, a dash and a day token that runs to the end. */
  predicate Spells(s: string, d: Date)
  {
    && |s| >= 5 && AllDigits(s[..4]) && s[4] == '-' && DigitsValue(s[..4]) == d.year
    && exists j :: 5 <= j < |s| && s[j] == '-' && MonthToken(s[5..j]) == Some(d.month) && DayToken(s[j + 1..]) == Some(d.day)
  }

  /** `datetime.strptime(s, '%Y-%m-%d').date()`: four digits of year, a dash, the month,
      a dash and the day, with nothing left over; then the calendar check of
      `datetime.date`. Every `ValueError` it raises is `None` here. */
  function ParseDate(s: string): (r: Option<Date>)
    ensures r.Some? ==> ValidDate(r.value)
    ensures r.Some? ==> 8 <= |s| <= 10 && AllDigits(s[..4]) && r.value.year == DigitsValue(s[..4])
    ensures r.Some? ==> Spells(s, r.value)
  {
    if |s| < 5 || !AllDigits(s[..4]) || s[4] != '-' then None
    else
      var rest := s[5..];
      match Text.IndexOf(rest, '-')
      case None => None
      case Some(j) =>
        match (MonthToken(rest[..j]), DayToken(rest[j + 1..]))
        case (Some(m), Some(d)) =>
          var date := Date(DigitsValue(s[..4]), m, d);
          assert s[5..5 + j] == rest[..j] && s[5 + j + 1..] == rest[j + 1..] && s[5 + j] == '-';
          if ValidDate(date) then Some(date) else None
        case _ => None
  }

  /** The parse succeeds exactly on the texts that spell a real calendar day, and
      gives that day. */
  lemma ParseDateExactly(s: string, d: Date)
    ensures ParseDate(s) == Some(d) <==> Spells(s, d) && ValidDate(d)
  {
    if Spells(s, d) && ValidDate(d) {
      var j :| 5 <= j < |s| && s[j] == '-' && MonthToken(s[5..j]) == Some(d.month) && DayToken(s[j + 1..]) == Some(d.day);
      ParseSpelledDate(s, d, j);
    }
  }

  /** A dash after a run of month digits is the first dash. */
  lemma FirstDash(rest: string, k: nat)
    requires k < |rest| && rest[k] == '-' && AllDigits(rest[..k])
    ensures Text.IndexOf(rest, '-') == Some(k)
  {
    assert '-' !in rest[..k];
  }

  /** A spelling of a real calendar day, with its second dash at `j`, parses to that day. */
  lemma ParseSpelledDate(s: string, d: Date, j: nat)
    requires |s| >= 5 && AllDigits(s[..4]) && s[4] == '-' && DigitsValue(s[..4]) == d.year
    requires 5 <= j < |s| && s[j] == '-' && MonthToken(s[5..j]) == Some(d.month) && DayToken(s[j + 1..]) == Some(d.day)
    requires ValidDate(d)
    ensures ParseDate(s) == Some(d)
  {
    var rest := s[5..];
    var k := j - 5;
    assert rest[..k] == s[5..j] && rest[k + 1..] == s[j + 1..] && rest[k] == '-';
    FirstDash(rest, k);
  }

  /** The value of the year text `202d`. */
  lemma YearDigits(c: char)
    requires IsDigit(c)
    ensures DigitsValue("202" + [c]) == 2020 + DigitValue(c)
  {
    assert "" + ['2'] == "2" && "2" + ['0'] == "20" && "20" + ['2'] == "202";
    DigitsValueAppend("", '2');
    DigitsValueAppend("2", '0');
    DigitsValueAppend("20", '2');
    DigitsValueAppend("202", c);
  }

  /** There is no month 13. */
  lemma ParseDateRefusesMonth()
    ensures ParseDate("2024-13-01") == None
  {
    assert "2024-13-01"[5..] == "13-01";
    assert "13-01"[..2] == "13";
    FirstDash("13-01", 2);
    assert "13-01"[..2] == "13";
  }

  /** 29 February exists only in leap years. */
  lemma ParseDateRefusesDay()
    ensures ParseDate("2023-02-29") == None
  {
    var s := "2023-02-29";
    assert s[..4] == "202" + ['3'] && AllDigits(s[..4]) && s[4] == '-';
    YearDigits('3');
    assert s[5..] == "02-29";
    assert "02-29"[..2] == "02";
    FirstDash("02-29", 2);
    assert "02-29"[..2] == "02" && "02-29"[3..] == "29";
    assert MonthToken("02") == Some(2) && DayToken("29") == Some(29);
    assert !ValidDate(Date(2023, 2, 29)) by { assert !IsLeapYear(2023); }
  }

  /** Month and day need not be zero-padded. */
  lemma ParseDateUnpadded()
    ensures ParseDate("2024-1-5") == Some(Date(2024, 1, 5))
  {
    var s := "2024-1-5";
    assert s[..4] == "202" + ['4'] && AllDigits(s[..4]) && s[4] == '-';
    YearDigits('4');
    assert s[5..] == "1-5";
    assert "1-5"[..1] == "1";
    FirstDash("1-5", 1);
    assert "1-5"[..1] == "1" && "1-5"[2..] == "5";
    assert MonthToken("1") == Some(1) && DayToken("5") == Some(5);
    assert ValidDate(Date(2024, 1, 5));
  }

  function Pad2(n: nat): (s: string)
    requires n < 100
    ensures |s| == 2 && AllDigits(s)
  {
    [DigitChar(n / 10), DigitChar(n % 10)]
  }

  function Pad4(n: nat): (s: string)
    requires n < 10000
    ensures |s| == 4 && AllDigits(s)
  {
    [DigitChar(n / 1000), DigitChar(n / 100 % 10), DigitChar(n / 10 % 10), DigitChar(n % 10)]
  }

  /** `str(date)`: the ISO form `YYYY-MM-DD`, zero-padded. */
  function FormatDate(d: Date): (s: string)
    requires ValidDate(d)
    ensures |s| == 10
    ensures AllDigits(s[..4]) && s[4] == '-' && AllDigits(s[5..7]) && s[7] == '-' && AllDigits(s[8..])
  {
    Pad4(d.year) + "-" + Pad2(d.month) + "-" + Pad2(d.day)
  }

  lemma Pad4Value(n: nat)
    requires n < 10000
    ensures DigitsValue(Pad4(n)) == n
  {
    var s := Pad4(n);
    assert s[..1][..0] == [] && s[..2][..1] == s[..1] && s[..3][..2] == s[..2] && s[..4][..3] == s[..3];
    assert DigitsValue(s[..1]) == n / 1000;
    assert n / 100 == n / 1000 * 10 + n / 100 % 10;
    assert DigitsValue(s[..2]) == n / 100;
    assert n / 10 == n / 100 * 10 + n / 10 % 10;
    assert DigitsValue(s[..3]) == n / 10;
    assert n == n / 10 * 10 + n % 10;
  }

  lemma MonthTokenPad2(m: int)
    requires 1 <= m <= 12
    ensures MonthToken(Pad2(m)) == Some(m)
  {
  }

  lemma DayTokenPad2(d: int)
    requires 1 <= d <= 31
    ensures DayToken(Pad2(d)) == Some(d)
  {
  }

  /** `strptime(str(d), '%Y-%m-%d').date() == d`: a rendered date parses back to itself. */
  lemma ParseFormatDate(d: Date)
    requires ValidDate(d)
    ensures ParseDate(FormatDate(d)) == Some(d)
  {
    var s := FormatDate(d);
    var rest := s[5..];
    assert s[..4] == Pad4(d.year);
    Pad4Value(d.year);
    assert rest == Pad2(d.month) + "-" + Pad2(d.day);
    assert Text.IndexOf(rest, '-') == Some(2);
    assert rest[..2] == Pad2(d.month);
    assert rest[3..] == Pad2(d.day);
    MonthTokenPad2(d.month);
    DayTokenPad2(d.day);
  }
}

=== FILE: export.dfy ===
/** The `/export` CSV download for admins: the dashboard's filtered list, one row per
    purchase under a fixed header. */
module Export {

  import opened Wrappers
  import opened Models
  import opened Forms
  import opened Dates
  import opened Numbers
  import Access
  import Filter
  import Dashboard

  /** One CSV field. Money cells keep the value that `f'${x:.2f}'` prints. */
  datatype Cell = Text(text: string) | Money(amount: real)

  const Header: seq<string> := [
    "ID", "Date", "Description", "Vendor", "Type", "Category", "Quantity", "Amount", "Total",
    "Paid on Collection", "Notes", "Uploaded By"]

  /** One data row, field by field in the order of `Header`. */
  datatype Line = Line(
    id: string,
    date: string,
    description: string,
    vendor: string,
    purchaseType: string,
    category: string,
    quantity: string,
    amount: real,
    total: real,
    paid: string,
    notes: string,
    uploadedBy: string)

  /** The field of a row that sits under the header `name`. */
  function Column(l: Line, name: string): Cell
  {
    if name == "ID" then Text(l.id)
    else if name == "Date" then Text(l.date)
    else if name == "Description" then Text(l.description)
    else if name == "Vendor" then Text(l.vendor)
    else if name == "Type" then Text(l.purchaseType)
    else if name == "Category" then Text(l.category)
    else if name == "Quantity" then Text(l.quantity)
    else if name == "Amount" then Money(l.amount)
    else if name == "Total" then Money(l.total)
    else if name == "Paid on Collection" then Text(l.paid)
    else if name == "Notes" then Text(l.notes)
    else Text(l.uploadedBy)
  }

  /** The fields as the CSV writer lays them out: one per header column, each under
      its own header. */
  function Cells(l: Line): (r: seq<Cell>)
    ensures |r| == |Header|
    ensures forall i :: 0 <= i < |r| ==> r[i] == Column(l, Header[i])
  {
    [Text(l.id), Text(l.date), Text(l.description), Text(l.vendor), Text(l.purchaseType),
     Text(l.category), Text(l.quantity), Money(l.amount), Money(l.total), Text(l.paid),
     Text(l.notes), Text(l.uploadedBy)]
  }

  /** What a category cell shows when the foreign key finds no category. */
  const NoCategory: string := "N/A"

  /** `purchase.user.username` on a purchase whose uploader is gone raises. */
  datatype ExportError = BadCriterion | MissingUploader(purchaseId: int)

  /** Python truthiness of the nullable `paid_on_collection` column. */
  predicate Paid(flag: Option<int>)
  {
    flag.Some? && flag.value != 0
  }

  /** Every purchase's date is one `datetime.date` can hold. */
  predicate Dated(ps: seq<Purchase>)
  {
    forall i :: 0 <= i < |ps| ==> ValidDate(ps[i].dateCollected)
  }

  /** The row of one purchase uploaded by `u`. */
  function LineOf(u: User, categories: seq<Category>, p: Purchase): (l: Line)
    requires ValidDate(p.dateCollected)
    ensures l.id == IntToString(p.id) && l.date == FormatDate(p.dateCollected) && l.quantity == IntToString(p.quantity)
    ensures l.description == p.description && l.vendor == p.vendor && l.purchaseType == p.purchaseType
    ensures FindCategory(categories, p.categoryId).Some? ==> l.category == FindCategory(categories, p.categoryId).value.name
    ensures FindCategory(categories, p.categoryId).None? ==> l.category == NoCategory
    ensures l.amount == p.amount && l.total == LineTotal(p)
    ensures l.paid == (if Paid(p.paidOnCollection) then "Yes" else "No")
    ensures l.notes == (if p.notes.Some? then p.notes.value else "")
    ensures l.uploadedBy == u.username
  {
    var category := match FindCategory(categories, p.categoryId)
      case None => NoCategory
      case Some(c) => c.name;
    Line(IntToString(p.id), FormatDate(p.dateCollected), p.description, p.vendor, p.purchaseType,
         category, IntToString(p.quantity), p.amount, LineTotal(p),
         if Paid(p.paidOnCollection) then "Yes" else "No",
         if p.notes.Some? then p.notes.value else "", u.username)
  }

  /** The id, date and quantity fields read back, with `int()` and
      `strptime('%Y-%m-%d')`, as the values they print. */
  lemma LineReadsBack(u: User, categories: seq<Category>, p: Purchase)
    requires ValidDate(p.dateCollected)
    ensures ParseInt(LineOf(u, categories, p).id) == Some(p.id)
    ensures ParseDate(LineOf(u, categories, p).date) == Some(p.dateCollected)
    ensures ParseInt(LineOf(u, categories, p).quantity) == Some(p.quantity)
  {
    ParseIntToString(p.id);
    ParseIntToString(p.quantity);
    ParseFormatDate(p.dateCollected);
  }

  /** The row of one purchase, or the failure of looking up its uploader. */
  function PurchaseRow(users: seq<User>, categories: seq<Category>, p: Purchase): (r: Result<Line, ExportError>)
    requires ValidDate(p.dateCollected)
    ensures r.Err? <==> FindUser(users, p.userId).None?
    ensures r.Err? ==> r.error == MissingUploader(p.id)
    ensures r.Ok? ==> r.value == LineOf(FindUser(users, p.userId).value, categories, p)
  {
    match FindUser(users, p.userId)
    case None => Err(MissingUploader(p.id))
    case Some(u) => Ok(LineOf(u, categories, p))
  }

  /** The first purchase whose uploader is missing, if any. */
  function FirstOrphan(users: seq<User>, ps: seq<Purchase>): (r: Option<nat>)
    ensures r.None? <==> forall i :: 0 <= i < |ps| ==> FindUser(users, ps[i].userId).Some?
    ensures r.Some? ==> r.value < |ps| && FindUser(users, ps[r.value].userId).None?
    ensures r.Some? ==> forall i :: 0 <= i < r.value ==> FindUser(users, ps[i].userId).Some?
  {
    if ps == [] then None
    else if FindUser(users, ps[0].userId).None? then Some(0)
    else
      match FirstOrphan(users, ps[1..])
      case None => None
      case Some(k) => Some(k + 1)
  }

  /** One row per purchase, in the order given (the header goes above them); the
      first purchase whose uploader is missing aborts the download. */
  function ExportRows(s: Store, ps: seq<Purchase>): (r: Result<seq<Line>, ExportError>)
    requires Dated(ps)
    ensures r.Ok? <==> forall i :: 0 <= i < |ps| ==> FindUser(s.users, ps[i].userId).Some?
    ensures r.Ok? ==> |r.value| == |ps|
    ensures r.Ok? ==> forall i :: 0 <= i < |ps| ==> r.value[i] == PurchaseRow(s.users, s.categories, ps[i]).value
    ensures r.Err? ==> exists i :: 0 <= i < |ps| && r.error == MissingUploader(ps[i].id)
  {
    match FirstOrphan(s.users, ps)
    case Some(k) => Err(MissingUploader(ps[k].id))
    case None =>
      Ok(seq(|ps|, i requires 0 <= i < |ps| => LineOf(FindUser(s.users, ps[i].userId).value, s.categories, ps[i])))
  }

  /** What the route answers: a redirect, a failure, or the CSV rows. */
  datatype Download = Redirected(to: Access.Decision) | Failed(error: ExportError) | Csv(header: seq<string>, rows: seq<Line>)

  /** The filter keeps only stored purchases, so their dates stay valid. */
  lemma FilteredDated(s: Store, args: Form)
    requires Dated(s.purchases) && Filter.Run(s, args).Ok?
    ensures Dated(Filter.Run(s, args).value)
  {
    var ps := Filter.Run(s, args).value;
    forall i | 0 <= i < |ps| ensures ValidDate(ps[i].dateCollected) {
      assert ps[i] in s.purchases;
    }
  }

  /** ... and their uploaders stay found. */
  lemma FilteredLinked(s: Store, args: Form)
    requires Linked(s) && Filter.Run(s, args).Ok?
    ensures forall i :: 0 <= i < |Filter.Run(s, args).value| ==> FindUser(s.users, Filter.Run(s, args).value[i].userId).Some?
  {
    var ps := Filter.Run(s, args).value;
    forall i | 0 <= i < |ps| ensures FindUser(s.users, ps[i].userId).Some? {
      assert ps[i] in s.purchases;
      var j :| 0 <= j < |s.purchases| && s.purchases[j] == ps[i];
    }
  }

  /** The download of an already-filtered list. */
  function Listing(s: Store, ps: seq<Purchase>): (r: Download)
    requires Dated(ps)
    ensures r.Csv? <==> forall i :: 0 <= i < |ps| ==> FindUser(s.users, ps[i].userId).Some?
    ensures !r.Csv? ==> r.Failed? && r.error.MissingUploader?
    ensures r.Csv? ==> r.header == Header && |r.rows| == |ps|
  {
    match ExportRows(s, ps)
    case Err(e) => Failed(e)
    case Ok(rows) => Csv(Header, rows)
  }

  /** The download once the gate has let the request through, given the filter's
      outcome. */
  function Filtered(s: Store, run: Result<seq<Purchase>, Filter.FilterError>): (r: Download)
    requires run.Ok? ==> Dated(run.value)
    ensures !r.Redirected?
    ensures r == Failed(BadCriterion) <==> run.Err?
    ensures r.Csv? <==> run.Ok? && forall i :: 0 <= i < |run.value| ==> FindUser(s.users, run.value[i].userId).Some?
    ensures r.Csv? ==> r.header == Header && |r.rows| == |run.value|
  {
    match run
    case Err(_) => Failed(BadCriterion)
    case Ok(ps) => Listing(s, ps)
  }

  function ExportRoute(s: Store, session: Option<int>, args: Form): (r: Download)
    requires Dated(s.purchases)
    ensures r.Redirected? <==> Access.Authorize(Access.CurrentUser(s, session), AdminRole) != Access.Proceed
    ensures r == Failed(BadCriterion) <==>
      Access.Authorize(Access.CurrentUser(s, session), AdminRole) == Access.Proceed && Filter.Run(s, args).Err?
    ensures r.Csv? <==>
      && Access.Authorize(Access.CurrentUser(s, session), AdminRole) == Access.Proceed
      && Filter.Run(s, args).Ok?
      && forall i :: 0 <= i < |Filter.Run(s, args).value| ==> FindUser(s.users, Filter.Run(s, args).value[i].userId).Some?
    ensures r.Csv? ==> r.header == Header && |r.rows| == |Filter.Run(s, args).value|
  {
    match Access.Authorize(Access.CurrentUser(s, session), AdminRole)
    case Proceed =>
      if Filter.Run(s, args).Ok? then FilteredDated(s, args); Filtered(s, Filter.Run(s, args))
      else Filtered(s, Filter.Run(s, args))
    case other => Redirected(other)
  }

  /** The export is refused, and fails on a bad criterion, exactly where the dashboard is. */
  lemma ExportGateMatchesDashboard(s: Store, session: Option<int>, args: Form)
    requires Dated(s.purchases)
    ensures Dashboard.DashboardRoute(s, session, args).Redirected? <==> ExportRoute(s, session, args).Redirected?
    ensures Dashboard.DashboardRoute(s, session, args).Failed? ==> ExportRoute(s, session, args) == Failed(BadCriterion)
  {
  }

  /** The export lists exactly what the dashboard lists for the same request, in the
      same order, under the fixed header. */
  lemma ExportListsDashboard(s: Store, session: Option<int>, args: Form)
    requires Dated(s.purchases)
    requires ExportRoute(s, session, args).Csv?
    ensures Dashboard.DashboardRoute(s, session, args).Shown?
    ensures ExportRoute(s, session, args).header == Header
    ensures var listed := Dashboard.DashboardRoute(s, session, args).view.purchases;
      Dated(listed) && ExportRows(s, listed) == Ok(ExportRoute(s, session, args).rows)
  {
    FilteredDated(s, args);
    var ps := Filter.Run(s, args).value;
    assert ExportRoute(s, session, args) == Listing(s, ps);
  }

  /** When every purchase's uploader exists, the export fails only on a bad criterion. */
  lemma ExportSucceedsWhenLinked(s: Store, session: Option<int>, args: Form)
    requires Dated(s.purchases) && Linked(s)
    ensures Dashboard.DashboardRoute(s, session, args).Shown? ==> ExportRoute(s, session, args).Csv?
  {
    if Dashboard.DashboardRoute(s, session, args).Shown? {
      FilteredDated(s, args);
      FilteredLinked(s, args);
      var ps := Filter.Run(s, args).value;
      assert ExportRoute(s, session, args) == Listing(s, ps);
    }
  }
}

=== FILE: filter.dfy ===
/** The purchase filter shared by the dashboard and the CSV export: six optional
    criteria, all ANDed, and the matches listed newest first. */
module Filter {

  import opened Wrappers
  import opened Models
  import opened Forms
  import opened Dates
  import opened Numbers
  import opened Sorting
  import Like

  /** The query-string values, each stripped; an empty one means "not given". */
  datatype RawCriteria = RawCriteria(
    search: string,
    category: string,
    vendor: string,
    purchaseType: string,
    dateFrom: string,
    dateTo: string)

  function ReadCriteria(args: Form): RawCriteria
  {
    RawCriteria(
      Field(args, "search", ""), Field(args, "category", ""), Field(args, "vendor", ""),
      Field(args, "type", ""), Field(args, "date_from", ""), Field(args, "date_to", ""))
  }

  /** The criteria once parsed; `None` places no constraint. */
  datatype Criteria = Criteria(
    search: Option<string>,
    category: Option<int>,
    vendor: Option<string>,
    purchaseType: Option<string>,
    dateFrom: Option<Date>,
    dateTo: Option<Date>)

  const NoCriteria: Criteria := Criteria(None, None, None, None, None, None)

  /** Why the request fails: `int(category)` raised, or the integer it produced does
      not fit the column and the query raised when it ran. */
  datatype FilterError = InvalidCriterion | CategoryOverflow

  /** A category criterion that makes the request fail. */
  predicate BadCategory(text: string)
  {
    text != "" && (ParseInt(text).None? || !FitsInteger(ParseInt(text).value))
  }

  function Given(text: string): (r: Option<string>)
    ensures r.None? <==> text == ""
    ensures r.Some? ==> r.value == text
  {
    if text == "" then None else Some(text)
  }

  /** A date bound: absent when empty, and also when it does not parse (the handler
      swallows the `ValueError`). */
  function DateBound(text: string): (r: Option<Date>)
    ensures r.Some? ==> ValidDate(r.value) && ParseDate(text) == r
    ensures text != "" && ParseDate(text).Some? ==> r == ParseDate(text)
  {
    if text == "" then None else ParseDate(text)
  }

  /** Turns the raw criteria into constraints. Only the category can fail. */
  function ParseCriteria(raw: RawCriteria): (r: Result<Criteria, FilterError>)
    ensures r.Err? <==> BadCategory(raw.category)
    ensures r.Err? && ParseInt(raw.category).None? ==> r.error == InvalidCriterion
    ensures r.Err? && ParseInt(raw.category).Some? ==> r.error == CategoryOverflow
    ensures r.Ok? ==> r.value.dateFrom == DateBound(raw.dateFrom) && r.value.dateTo == DateBound(raw.dateTo)
    ensures r.Ok? ==> r.value.search == Given(raw.search) && r.value.vendor == Given(raw.vendor)
    ensures r.Ok? ==> r.value.purchaseType == Given(raw.purchaseType)
    ensures r.Ok? ==> (r.value.category.None? <==> raw.category == "")
    ensures r.Ok? && raw.category != "" ==> r.value.category == ParseInt(raw.category)
  {
    var category :-
      if raw.category == "" then Ok(None)
      else match ParseInt(raw.category)
        case None => Err(InvalidCriterion)
        case Some(n) => if FitsInteger(n) then Ok(Some(n)) else Err(CategoryOverflow);
    Ok(Criteria(Given(raw.search), category, Given(raw.vendor), Given(raw.purchaseType),
                DateBound(raw.dateFrom), DateBound(raw.dateTo)))
  }

  predicate SearchMatches(search: Option<string>, p: Purchase)
  {
    search.None? || Like.Contains(p.description, search.value) || Like.Contains(p.vendor, search.value)
  }

  /** `p` satisfies every criterion given. Bounds are inclusive. */
  predicate Matches(c: Criteria, p: Purchase)
  {
    && SearchMatches(c.search, p)
    && (c.category.None? || p.categoryId == c.category)
    && (c.vendor.None? || p.vendor == c.vendor.value)
    && (c.purchaseType.None? || p.purchaseType == c.purchaseType.value)
    && (c.dateFrom.None? || OnOrBefore(c.dateFrom.value, p.dateCollected))
    && (c.dateTo.None? || OnOrBefore(p.dateCollected, c.dateTo.value))
  }

  /** The purchases that match, in store order. */
  function Select(ps: seq<Purchase>, c: Criteria): (r: seq<Purchase>)
    ensures forall x :: x in r <==> x in ps && Matches(c, x)
    ensures multiset(r) <= multiset(ps)
    ensures forall x :: multiset(r)[x] == if Matches(c, x) then multiset(ps)[x] else 0
    ensures (forall i :: 0 <= i < |ps| ==> Matches(c, ps[i])) ==> r == ps
  {
    if ps == [] then []
    else
      assert ps == [ps[0]] + ps[1..];
      (if Matches(c, ps[0]) then [ps[0]] else []) + Select(ps[1..], c)
  }

  /** Category, vendor and type are exact-equality tests. */
  lemma EqualityCriteria(p: Purchase, category: int, vendor: string, purchaseType: string)
    ensures Matches(NoCriteria.(category := Some(category)), p) <==> p.categoryId == Some(category)
    ensures Matches(NoCriteria.(vendor := Some(vendor)), p) <==> p.vendor == vendor
    ensures Matches(NoCriteria.(purchaseType := Some(purchaseType)), p) <==> p.purchaseType == purchaseType
  {
  }

  /** Both date bounds are inclusive: `date_from` keeps the purchases on or after it,
      `date_to` those on or before it, so a purchase dated on a bound is kept. */
  lemma BoundsInclusive(p: Purchase, from: Date, to: Date)
    ensures Matches(NoCriteria.(dateFrom := Some(from)), p) <==> OnOrBefore(from, p.dateCollected)
    ensures Matches(NoCriteria.(dateTo := Some(to)), p) <==> OnOrBefore(p.dateCollected, to)
    ensures Matches(NoCriteria.(dateFrom := Some(p.dateCollected), dateTo := Some(p.dateCollected)), p)
  {
  }

  /** `order_by(Purchase.date_collected.desc())`: `a` may be listed before `b`. */
  predicate NewerFirst(a: Purchase, b: Purchase)
  {
    OnOrBefore(b.dateCollected, a.dateCollected)
  }

  lemma NewerFirstIsTotalPreorder()
    ensures TotalPreorder(NewerFirst)
  {
    forall a: Purchase, b: Purchase, c: Purchase
      ensures NewerFirst(a, b) || NewerFirst(b, a)
      ensures NewerFirst(a, b) && NewerFirst(b, c) ==> NewerFirst(a, c)
    {
      OnOrBeforeTotalOrder(c.dateCollected, b.dateCollected, a.dateCollected);
    }
  }

  /** The filtered list: exactly the matching purchases, newest first. */
  function Query(ps: seq<Purchase>, c: Criteria): (r: seq<Purchase>)
    ensures multiset(r) == multiset(Select(ps, c))
    ensures forall x :: x in r <==> x in ps && Matches(c, x)
    ensures forall i, j :: 0 <= i < j < |r| ==> OnOrBefore(r[j].dateCollected, r[i].dateCollected)
  {
    NewerFirstIsTotalPreorder();
    var r := Sort(Select(ps, c), NewerFirst);
    assert forall x :: x in r <==> x in multiset(Select(ps, c));
    assert SortedBy(r, NewerFirst);
    r
  }

  /** The handler's filter for already-read criteria. */
  function Search(ps: seq<Purchase>, raw: RawCriteria): Result<seq<Purchase>, FilterError>
  {
    var c :- ParseCriteria(raw);
    Ok(Query(ps, c))
  }

  /** The filter as the dashboard and export run it on a request's query string. */
  function Run(s: Store, args: Form): Result<seq<Purchase>, FilterError>
  {
    Search(s.purchases, ReadCriteria(args))
  }

  /** With no criteria the filter lists every purchase, each exactly once. */
  lemma NoCriteriaListsAll(ps: seq<Purchase>)
    ensures ParseCriteria(RawCriteria("", "", "", "", "", "")) == Ok(NoCriteria)
    ensures multiset(Query(ps, NoCriteria)) == multiset(ps)
  {
  }

  /** A non-numeric category fails the request; it is not ignored. */
  lemma BadCategoryFails(ps: seq<Purchase>, raw: RawCriteria)
    requires raw.category != "" && ParseInt(raw.category).None?
    ensures Search(ps, raw) == Err(InvalidCriterion)
  {
  }

  /** A date bound that does not parse filters exactly as if it were left out. */
  lemma MalformedDateIgnored(ps: seq<Purchase>, raw: RawCriteria, bad: string)
    requires ParseDate(bad).None?
    ensures Search(ps, raw.(dateFrom := bad)) == Search(ps, raw.(dateFrom := ""))
    ensures Search(ps, raw.(dateTo := bad)) == Search(ps, raw.(dateTo := ""))
  {
    assert DateBound(bad) == DateBound("");
  }

  /** For search text without `%` or `_`, a purchase matches the search exactly when
      the text occurs in its description or its vendor, ignoring ASCII case. */
  lemma SearchIsSubstring(x: string, p: Purchase)
    requires Like.NoWildcards(x)
    ensures SearchMatches(Some(x), p) <==>
      (exists k :: Like.OccursAt(x, p.description, k)) || (exists k :: Like.OccursAt(x, p.vendor, k))
  {
    Like.ContainsIsSubstring(p.description, x);
    Like.ContainsIsSubstring(p.vendor, x);
  }

  /** The criterion number `i` of `c` alone. */
  function Only(c: Criteria, i: int): Criteria
  {
    if i == 0 then NoCriteria.(search := c.search)
    else if i == 1 then NoCriteria.(category := c.category)
    else if i == 2 then NoCriteria.(vendor := c.vendor)
    else if i == 3 then NoCriteria.(purchaseType := c.purchaseType)
    else if i == 4 then NoCriteria.(dateFrom := c.dateFrom)
    else NoCriteria.(dateTo := c.dateTo)
  }

  lemma MatchesEveryCriterion(c: Criteria, x: Purchase)
    ensures Matches(c, x) <==> forall i :: 0 <= i < 6 ==> Matches(Only(c, i), x)
  {
    assert Matches(Only(c, 0), x) <==> SearchMatches(c.search, x);
    assert Matches(Only(c, 1), x) <==> c.category.None? || x.categoryId == c.category;
    assert Matches(Only(c, 2), x) <==> c.vendor.None? || x.vendor == c.vendor.value;
    assert Matches(Only(c, 3), x) <==> c.purchaseType.None? || x.purchaseType == c.purchaseType.value;
    assert Matches(Only(c, 4), x) <==> c.dateFrom.None? || OnOrBefore(c.dateFrom.value, x.dateCollected);
    assert Matches(Only(c, 5), x) <==> c.dateTo.None? || OnOrBefore(x.dateCollected, c.dateTo.value);
  }

  /** Combining criteria intersects the lists each criterion gives alone. */
  lemma CriteriaIntersect(ps: seq<Purchase>, c: Criteria, x: Purchase)
    ensures x in Query(ps, c) <==> forall i :: 0 <= i < 6 ==> x in Query(ps, Only(c, i))
  {
    MatchesEveryCriterion(c, x);
    if forall i :: 0 <= i < 6 ==> x in Query(ps, Only(c, i)) {
      assert x in Query(ps, Only(c, 0));
    }
  }
}

=== FILE: forms.dfy ===
/** Request parameters as the handlers read them. A form or query string is a map from
    field name to its (first) value; a field that was not sent is absent from the map. */
module Forms {

  import Text

  type Form = map<string, string>

  /** `request.form.get(key, default)`. */
  function Get(form: Form, key: string, default: string): (r: string)
    ensures key in form ==> r == form[key]
    ensures key !in form ==> r == default
  {
    if key in form then form[key] else default
  }

  /** `request.form.get(key, default).strip()`, the way most fields are read. */
  function Field(form: Form, key: string, default: string): string
  {
    Text.Strip(Get(form, key, default))
  }

  /** A checkbox: `request.form.get(key)` is truthy, i.e. sent with a non-empty value. */
  predicate Checked(form: Form, key: string)
  {
    key in form && form[key] != ""
  }
}

=== FILE: like.dfy ===
/** The text search of the purchase filter. SQLAlchemy renders `column.contains(x)` as
    `column LIKE '%' || x || '%'` without escaping `x`, and SQLite's LIKE folds the case
    of ASCII letters only; so `%` and `_` typed into the search box act as wildcards. */
module Like {

  import opened Text

  /** Two characters LIKE treats as equal: the same once ASCII letters are lower-cased. */
  predicate SameLetter(a: char, b: char)
  {
    AsciiLower(a) == AsciiLower(b)
  }

  /** SQLite's `t LIKE p` with no ESCAPE clause: `%` matches any run of characters,
      `_` any single character, and every other character itself up to ASCII case. */
  predicate Like(p: string, t: string)
    decreases |p| + |t|
  {
    if p == [] then t == []
    else if p[0] == '%' then Like(p[1..], t) || (t != [] && Like(p, t[1..]))
    else t != [] && (p[0] == '_' || SameLetter(p[0], t[0])) && Like(p[1..], t[1..])
  }

  /** `column.contains(x)` as SQLite evaluates it. */
  predicate Contains(t: string, x: string)
  {
    Like("%" + x + "%", t)
  }

  predicate NoWildcards(x: string)
  {
    '%' !in x && '_' !in x
  }

  /** `x` occurs in `t` at index `k`, up to ASCII case. */
  predicate OccursAt(x: string, t: string, k: int)
  {
    0 <= k && k + |x| <= |t| && forall i :: 0 <= i < |x| ==> SameLetter(x[i], t[k + i])
  }

  /** `q` matches the suffix of `t` that starts at `k`. */
  predicate LikeFrom(q: string, t: string, k: int)
  {
    0 <= k <= |t| && Like(q, t[k..])
  }

  lemma {:induction false} PercentMatchesAll(t: string)
    ensures Like("%", t)
    decreases |t|
  {
    if t != [] {
      PercentMatchesAll(t[1..]);
    }
  }

  /** A leading `%` lets the rest of the pattern start anywhere in the text. */
  lemma {:induction false} LeadingPercent(q: string, t: string)
    ensures Like("%" + q, t) <==> exists k :: LikeFrom(q, t, k)
    decreases |t|
  {
    var p := "%" + q;
    assert p[1..] == q;
    if t == [] {
      if Like(q, t) { assert LikeFrom(q, t, 0); }
    } else {
      LeadingPercent(q, t[1..]);
      if Like(p, t) {
        if Like(q, t) {
          assert LikeFrom(q, t, 0);
        } else {
          var k :| LikeFrom(q, t[1..], k);
          assert t[1..][k..] == t[k + 1..];
          assert LikeFrom(q, t, k + 1);
        }
      }
      if k :| LikeFrom(q, t, k) {
        if k > 0 {
          assert t[1..][k - 1..] == t[k..];
          assert LikeFrom(q, t[1..], k - 1);
        }
      }
    }
  }

  /** A wildcard-free pattern followed by `%` matches exactly the texts it begins. */
  lemma {:induction false} LiteralPrefix(x: string, u: string)
    requires NoWildcards(x)
    ensures Like(x + "%", u) <==> OccursAt(x, u, 0)
    decreases |x|
  {
    if x == [] {
      assert x + "%" == "%";
      PercentMatchesAll(u);
    } else {
      var p := x + "%";
      assert p[0] == x[0] && p[1..] == x[1..] + "%";
      if u != [] {
        LiteralPrefix(x[1..], u[1..]);
        if OccursAt(x[1..], u[1..], 0) && SameLetter(x[0], u[0]) {
          forall i | 0 <= i < |x| ensures SameLetter(x[i], u[i]) {
            if i > 0 { assert SameLetter(x[1..][i - 1], u[1..][i - 1]); }
          }
        }
        if OccursAt(x, u, 0) {
          forall i | 0 <= i < |x| - 1 ensures SameLetter(x[1..][i], u[1..][i]) {
            assert SameLetter(x[i + 1], u[i + 1]);
          }
        }
      }
    }
  }

  /** For search text without `%` or `_`, `contains` is a substring test that ignores
      the case of ASCII letters. */
  lemma ContainsIsSubstring(t: string, x: string)
    requires NoWildcards(x)
    ensures Contains(t, x) <==> exists k :: OccursAt(x, t, k)
  {
    assert "%" + x + "%" == "%" + (x + "%");
    LeadingPercent(x + "%", t);
    if k :| LikeFrom(x + "%", t, k) {
      LiteralPrefix(x, t[k..]);
      assert OccursAt(x, t, k);
    }
    if k :| OccursAt(x, t, k) {
      LiteralPrefix(x, t[k..]);
      assert LikeFrom(x + "%", t, k);
    }
  }

  /** A `_` in the search text is a wildcard: searching for `_` matches a description
      that contains no underscore at all. */
  lemma UnderscoreIsWildcard()
    ensures Contains("Pen", "_")
    ensures !exists k :: OccursAt("_", "Pen", k)
  {
    assert "%" + "_" + "%" == "%_%";
    assert Like("%", "en") by { PercentMatchesAll("en"); }
    assert Like("_%", "Pen");
  }
}

=== FILE: models.dfy ===
/** The four tables of the expense tracker (`users`, `categories`, `purchases`,
    `audit_logs`) as immutable records, the store that holds them, and the constraints
    the schema and the write paths keep. */
module Models {

  import opened Wrappers
  import opened Dates

  const ShopperRole: string := "shopper"
  const AdminRole: string := "admin"
  const DevRole: string := "dev"

  /** Column defaults of the schema. */
  const DefaultRole: string := ShopperRole
  const DefaultQuantity: int := 1
  const DefaultPurchaseType: string := "product"
  const DefaultPaidOnCollection: int := 1

  /** The only action the audit trail records. */
  const CreateAction: string := "create"

  /** A login. `passwordHash` is whatever the password-hashing collaborator produced;
      the plain password is never stored. */
  datatype User = User(id: int, username: string, email: string, passwordHash: string, role: string)

  datatype Category = Category(id: int, name: string, description: Option<string>)

  /** One expense. `categoryId` is a foreign key the store does not enforce: it may name
      no category at all. `notes` and `paidOnCollection` are nullable columns. */
  datatype Purchase = Purchase(
    id: int,
    userId: int,
    description: string,
    amount: real,
    quantity: int,
    vendor: string,
    dateCollected: Date,
    purchaseType: string,
    categoryId: Option<int>,
    attachmentUrl: Option<string>,
    notes: Option<string>,
    paidOnCollection: Option<int>)

  /** The form values an upload submitted, as the audit trail keeps them (the
      `changes` column holds them serialised as JSON). Date and category are kept
      as the text the user typed. */
  datatype Snapshot = Snapshot(
    description: string,
    amount: real,
    quantity: int,
    vendor: string,
    dateCollected: string,
    purchaseType: string,
    categoryId: string,
    notes: string,
    paidOnCollection: int)

  datatype AuditLog = AuditLog(
    id: int,
    purchaseId: Option<int>,
    userId: Option<int>,
    action: string,
    changes: Option<Snapshot>)

  datatype Store = Store(
    users: seq<User>,
    categories: seq<Category>,
    purchases: seq<Purchase>,
    auditLogs: seq<AuditLog>)

  /** SQLite's INTEGER storage class holds signed 64-bit values; binding a Python `int`
      outside that range raises `OverflowError` when the statement runs. */
  const MinInteger: int := -0x8000_0000_0000_0000
  const MaxInteger: int := 0x7FFF_FFFF_FFFF_FFFF

  predicate FitsInteger(n: int)
  {
    MinInteger <= n <= MaxInteger
  }

  /** amount × quantity, the figure every total adds up. */
  function LineTotal(p: Purchase): real
  {
    p.amount * p.quantity as real
  }

  /** The id SQLite gives the next row of a table: one more than the largest id in it,
      or 1 for an empty table. */
  function NextId<T>(rows: seq<T>, id: T -> int): (r: int)
    ensures rows == [] ==> r == 1
    ensures forall i :: 0 <= i < |rows| ==> id(rows[i]) < r
    ensures rows != [] ==> exists i :: 0 <= i < |rows| && id(rows[i]) == r - 1
  {
    if rows == [] then 1
    else
      var last := id(rows[|rows| - 1]);
      if |rows| == 1 then last + 1
      else
        var before := NextId(rows[..|rows| - 1], id);
        if last + 1 > before then last + 1 else before
  }

  function NextUserId(s: Store): int
  {
    NextId(s.users, (u: User) => u.id)
  }

  function NextCategoryId(s: Store): int
  {
    NextId(s.categories, (c: Category) => c.id)
  }

  function NextPurchaseId(s: Store): int
  {
    NextId(s.purchases, (p: Purchase) => p.id)
  }

  function NextAuditLogId(s: Store): int
  {
    NextId(s.auditLogs, (l: AuditLog) => l.id)
  }

  predicate HasUsername(users: seq<User>, name: string)
  {
    exists i :: 0 <= i < |users| && users[i].username == name
  }

  predicate HasEmail(users: seq<User>, email: string)
  {
    exists i :: 0 <= i < |users| && users[i].email == email
  }

  predicate HasCategoryName(categories: seq<Category>, name: string)
  {
    exists i :: 0 <= i < |categories| && categories[i].name == name
  }

  /** `User.query.get(id)`: the user with that primary key, if any. */
  function FindUser(users: seq<User>, id: int): (r: Option<User>)
    ensures r.Some? ==> r.value in users && r.value.id == id
    ensures r.None? ==> forall i :: 0 <= i < |users| ==> users[i].id != id
  {
    if users == [] then None
    else if users[0].id == id then Some(users[0])
    else FindUser(users[1..], id)
  }

  /** The category a foreign key refers to, if any: the `purchase.category` relationship. */
  function FindCategory(categories: seq<Category>, id: Option<int>): (r: Option<Category>)
    ensures r.Some? ==> r.value in categories && id == Some(r.value.id)
    ensures r.None? ==> forall i :: 0 <= i < |categories| ==> id != Some(categories[i].id)
  {
    if id.None? || categories == [] then None
    else if categories[0].id == id.value then Some(categories[0])
    else FindCategory(categories[1..], id)
  }

  /** Adding rows to the end of `users` does not change whom an existing id finds. */
  lemma {:induction false} FindUserAppend(users: seq<User>, more: seq<User>, id: int)
    requires FindUser(users, id).Some?
    ensures FindUser(users + more, id) == FindUser(users, id)
  {
    assert (users + more)[0] == users[0];
    if users[0].id != id {
      assert (users + more)[1..] == users[1..] + more;
      FindUserAppend(users[1..], more, id);
    }
  }

  predicate KnownRole(role: string)
  {
    role == ShopperRole || role == AdminRole || role == DevRole
  }

  /** The `users` table: primary key, `unique=True` on username and on email, and a role
      every path that creates a user draws from the three known ones. */
  predicate ValidUsers(users: seq<User>)
  {
    && (forall i, j :: 0 <= i < j < |users| ==> users[i].id != users[j].id)
    && (forall i, j :: 0 <= i < j < |users| ==> users[i].username != users[j].username)
    && (forall i, j :: 0 <= i < j < |users| ==> users[i].email != users[j].email)
    && (forall i :: 0 <= i < |users| ==> KnownRole(users[i].role))
  }

  /** The `categories` table: primary key and `unique=True` on name. */
  predicate ValidCategories(categories: seq<Category>)
  {
    && (forall i, j :: 0 <= i < j < |categories| ==> categories[i].id != categories[j].id)
    && (forall i, j :: 0 <= i < j < |categories| ==> categories[i].name != categories[j].name)
  }

  /** The two CHECK constraints of the `purchases` table, and a date `datetime.date` can hold. */
  predicate ValidPurchase(p: Purchase)
  {
    p.amount > 0.0 && p.quantity > 0 && ValidDate(p.dateCollected)
  }

  predicate ValidPurchases(purchases: seq<Purchase>)
  {
    && (forall i, j :: 0 <= i < j < |purchases| ==> purchases[i].id != purchases[j].id)
    && (forall i :: 0 <= i < |purchases| ==> ValidPurchase(purchases[i]))
  }

  /** Every purchase names its uploader, and every audit entry names an existing
      purchase and user. */
  predicate Linked(s: Store)
  {
    && (forall i :: 0 <= i < |s.purchases| ==> FindUser(s.users, s.purchases[i].userId).Some?)
    && (forall i :: 0 <= i < |s.auditLogs| ==> LogLinked(s, s.auditLogs[i]))
  }

  predicate LogLinked(s: Store, l: AuditLog)
  {
    && l.purchaseId.Some? && (exists j :: 0 <= j < |s.purchases| && s.purchases[j].id == l.purchaseId.value)
    && l.userId.Some? && FindUser(s.users, l.userId.value).Some?
  }

  predicate Valid(s: Store)
  {
    && ValidUsers(s.users)
    && ValidCategories(s.categories)
    && ValidPurchases(s.purchases)
    && (forall i, j :: 0 <= i < j < |s.auditLogs| ==> s.auditLogs[i].id != s.auditLogs[j].id)
    && Linked(s)
  }

  const EmptyStore: Store := Store([], [], [], [])

  lemma EmptyStoreValid()
    ensures Valid(EmptyStore)
  {
  }
}

=== FILE: numbers.dfy ===
/** Decimal integers as text: Python's `int(text)` on a stripped string, and `str(n)`. */
module Numbers {

  import opened Wrappers

  predicate IsDigit(c: char)
  {
    '0' <= c <= '9'
  }

  predicate AllDigits(s: string)
  {
    forall i :: 0 <= i < |s| ==> IsDigit(s[i])
  }

  function DigitValue(c: char): (r: nat)
    requires IsDigit(c)
    ensures r < 10
  {
    c as int - '0' as int
  }

  function DigitChar(d: nat): (c: char)
    requires d < 10
    ensures IsDigit(c) && DigitValue(c) == d
  {
    ('0' as int + d) as char
  }

  /** The value of a run of decimal digits, most significant first. */
  function DigitsValue(s: string): nat
    requires AllDigits(s)
  {
    if s == [] then 0 else DigitsValue(s[..|s| - 1]) * 10 + DigitValue(s[|s| - 1])
  }

  /** The digit part `int()` accepts: ASCII digits, where single underscores may separate
      two digits (`1_000`), but none may lead, trail or follow another. */
  predicate DigitGroups(s: string)
  {
    && |s| > 0 && IsDigit(s[0]) && IsDigit(s[|s| - 1])
    && (forall i :: 0 <= i < |s| ==> IsDigit(s[i]) || s[i] == '_')
    && (forall i :: 0 <= i < |s| - 1 ==> s[i] == '_' ==> s[i + 1] != '_')
  }

  function DropUnderscores(s: string): (r: string)
    ensures (forall i :: 0 <= i < |s| ==> IsDigit(s[i]) || s[i] == '_') ==> AllDigits(r)
    ensures AllDigits(s) ==> r == s
  {
    if s == [] then []
    else if s[0] == '_' then DropUnderscores(s[1..])
    else [s[0]] + DropUnderscores(s[1..])
  }

  /** The text after a leading sign, if there is one. */
  function Unsigned(s: string): (r: string)
    ensures |s| > 0 && (s[0] == '+' || s[0] == '-') ==> r == s[1..]
    ensures |s| == 0 || (s[0] != '+' && s[0] != '-') ==> r == s
  {
    if |s| > 0 && (s[0] == '+' || s[0] == '-') then s[1..] else s
  }

  function Signed(negative: bool, magnitude: nat): int
  {
    if negative then -(magnitude as int) else magnitude
  }

  /** Python's `int(s)` for a string that has already been stripped of whitespace:
      an optional sign followed by digit groups; anything else raises `ValueError`,
      modelled as `None`. */
  function ParseInt(s: string): (r: Option<int>)
    ensures r.Some? ==> |s| > 0
    ensures r.Some? ==> forall i :: 0 <= i < |s| ==> IsDigit(s[i]) || s[i] == '_' || (i == 0 && (s[i] == '+' || s[i] == '-'))
    ensures r.Some? && r.value < 0 ==> s[0] == '-'
    ensures |s| > 0 && (s[0] == '+' || s[0] == '-') ==> (r.Some? <==> DigitGroups(s[1..]))
    ensures |s| > 0 && s[0] != '+' && s[0] != '-' ==> (r.Some? <==> DigitGroups(s))
    ensures r.Some? ==> r.value == Signed(s[0] == '-', DigitsValue(DropUnderscores(Unsigned(s))))
    ensures |s| > 0 && AllDigits(s) ==> r == Some(DigitsValue(s))
  {
    if s == [] then None
    else
      var negative := s[0] == '-';
      var body := if s[0] == '-' || s[0] == '+' then s[1..] else s;
      if !DigitGroups(body) then None
      else
        var magnitude: int := DigitsValue(DropUnderscores(body));
        Some(if negative then -(magnitude as int) else magnitude)
  }

  /** `int()` accepts a leading sign. */
  lemma ParseIntSigned()
    ensures ParseInt("+5") == Some(5) && ParseInt("-7") == Some(-7)
  {
    assert "+5"[1..] == "5" && DigitGroups("5") && DropUnderscores("5") == "5" && "5"[..0] == [];
    assert "-7"[1..] == "7" && DigitGroups("7") && DropUnderscores("7") == "7" && "7"[..0] == [];
  }

  /** `int()` accepts single underscores between digits. */
  lemma ParseIntGrouped()
    ensures ParseInt("1_000") == Some(1000)
  {
    assert DigitGroups("1_000");
    assert DropUnderscores("1_000") == "1000";
    assert "" + ['1'] == "1" && "1" + ['0'] == "10" && "10" + ['0'] == "100" && "100" + ['0'] == "1000";
    DigitsValueAppend("", '1');
    DigitsValueAppend("1", '0');
    DigitsValueAppend("10", '0');
    DigitsValueAppend("100", '0');
  }

  /** `int()` accepts leading zeros. */
  lemma ParseIntLeadingZeros()
    ensures ParseInt("007") == Some(7)
  {
    assert "" + ['0'] == "0" && "0" + ['0'] == "00" && "00" + ['7'] == "007";
    DigitsValueAppend("", '0');
    DigitsValueAppend("0", '0');
    DigitsValueAppend("00", '7');
  }

  /** One more digit shifts the value one decimal place. */
  lemma DigitsValueAppend(t: string, c: char)
    requires AllDigits(t) && IsDigit(c)
    ensures DigitsValue(t + [c]) == DigitsValue(t) * 10 + DigitValue(c)
  {
    assert (t + [c])[..|t|] == t;
  }

  /** Texts `int()` refuses: letters, a lone sign, two signs, doubled, leading or
      trailing underscores, and inner blanks. */
  lemma ParseIntRefuses()
    ensures ParseInt("12a") == None && ParseInt("") == None && ParseInt("-") == None
    ensures ParseInt("1__0") == None && ParseInt("_1") == None && ParseInt("1_") == None
    ensures ParseInt("1 2") == None && ParseInt("+-1") == None
  {
    assert "12a"[2] == 'a';
    assert "1__0"[1] == '_' && "1__0"[2] == '_';
    assert "1 2"[1] == ' ';
    assert "+-1"[1..] == "-1";
  }

  /** Python's `str(n)` for a natural number. */
  function NatToString(n: nat): (s: string)
    ensures |s| > 0 && AllDigits(s)
    ensures n == 0 ==> s == "0"
    ensures n > 0 ==> s[0] != '0'
    decreases n
  {
    if n < 10 then [DigitChar(n)] else NatToString(n / 10) + [DigitChar(n % 10)]
  }

  /** Python's `str(n)`: the decimal digits of `n`, after a minus sign when it is negative. */
  function IntToString(n: int): (s: string)
    ensures n >= 0 ==> |s| > 0 && AllDigits(s)
    ensures n < 0 ==> |s| > 1 && s[0] == '-' && AllDigits(s[1..])
    ensures n >= 0 ==> DigitsValue(s) == n
    ensures n >= 0 && |s| > 1 ==> s[0] != '0'
    ensures n < 0 ==> s[1] != '0' && DigitsValue(s[1..]) == -n
  {
    NatToStringValue(if n < 0 then -n else n);
    if n < 0 then "-" + NatToString(-n) else NatToString(n)
  }

  lemma {:induction false} NatToStringValue(n: nat)
    ensures DigitsValue(NatToString(n)) == n
    decreases n
  {
    if n >= 10 {
      var s := NatToString(n);
      assert s[..|s| - 1] == NatToString(n / 10);
      NatToStringValue(n / 10);
    }
  }

  /** A minus sign followed by plain digits reads as the negated digits. */
  lemma ParseNegative(digits: string)
    requires |digits| > 0 && AllDigits(digits)
    ensures ParseInt("-" + digits).Some? && ParseInt("-" + digits).value == -(DigitsValue(digits) as int)
  {
    var s := "-" + digits;
    assert s[0] == '-' && s[1..] == digits;
    assert forall i :: 0 <= i < |digits| ==> digits[i] != '_';
    assert DigitGroups(digits);
    assert DropUnderscores(digits) == digits;
  }

  /** `int(str(n)) == n`: every rendered integer parses back to itself. */
  lemma ParseIntToString(n: int)
    ensures ParseInt(IntToString(n)) == Some(n)
  {
    if n < 0 {
      assert IntToString(n) == "-" + NatToString(-n);
      NatToStringValue(-n);
      ParseNegative(NatToString(-n));
    } else {
      assert IntToString(n) == NatToString(n);
      NatToStringValue(n);
    }
  }
}

=== FILE: registration.dfy ===
/** The `register` handler: a new shopper or admin account, each username and email
    used at most once. */
module Registration {

  import opened Wrappers
  import opened Models
  import opened Forms

  datatype RegisterError =
    | AlreadyLoggedIn   // an authenticated user is sent back to the index
    | MissingFields     // username, email or password left empty
    | UsernameTaken
    | EmailTaken

  /** Self-registration may ask for the shopper or the admin role; anything else,
      `dev` included, becomes a shopper. */
  function NormaliseRole(role: string): (r: string)
    ensures r == ShopperRole || r == AdminRole
    ensures role == ShopperRole || role == AdminRole ==> r == role
    ensures role != ShopperRole && role != AdminRole ==> r == DefaultRole
  {
    if role != ShopperRole && role != AdminRole then DefaultRole else role
  }

  /** The account a registration form asks for, before the uniqueness checks. */
  function Applicant(s: Store, form: Form, hash: string -> string): User
  {
    User(NextUserId(s), Field(form, "username", ""), Field(form, "email", ""),
         hash(Get(form, "password", "")), NormaliseRole(Get(form, "role", DefaultRole)))
  }

  /** Handles a registration form. On success the store gains exactly one user and
      nothing else changes; every failure leaves the store as it was. */
  function Register(s: Store, current: Option<User>, form: Form, hash: string -> string): (r: Result<Store, RegisterError>)
    ensures r.Ok? <==>
      && current.None?
      && Field(form, "username", "") != "" && Field(form, "email", "") != "" && Get(form, "password", "") != ""
      && !HasUsername(s.users, Field(form, "username", ""))
      && !HasEmail(s.users, Field(form, "email", ""))
    ensures r == Err(AlreadyLoggedIn) <==> current.Some?
    ensures r == Err(MissingFields) <==>
      current.None? && (Field(form, "username", "") == "" || Field(form, "email", "") == "" || Get(form, "password", "") == "")
    ensures r == Err(UsernameTaken) <==>
      && current.None?
      && Field(form, "username", "") != "" && Field(form, "email", "") != "" && Get(form, "password", "") != ""
      && HasUsername(s.users, Field(form, "username", ""))
    ensures r == Err(EmailTaken) <==>
      && current.None?
      && Field(form, "username", "") != "" && Field(form, "email", "") != "" && Get(form, "password", "") != ""
      && !HasUsername(s.users, Field(form, "username", ""))
      && HasEmail(s.users, Field(form, "email", ""))
    ensures r.Ok? ==> r.value == s.(users := s.users + [Applicant(s, form, hash)])
    ensures r.Ok? ==> Applicant(s, form, hash).role != DevRole
    ensures r.Ok? && Valid(s) ==> Valid(r.value)
  {
    var username := Field(form, "username", "");
    var email := Field(form, "email", "");
    var password := Get(form, "password", "");
    if current.Some? then Err(AlreadyLoggedIn)
    else if username == "" || email == "" || password == "" then Err(MissingFields)
    else if HasUsername(s.users, username) then Err(UsernameTaken)
    else if HasEmail(s.users, email) then Err(EmailTaken)
    else
      var s' := s.(users := s.users + [Applicant(s, form, hash)]);
      assert Valid(s) ==> Valid(s') by {
        if Valid(s) {
          AddUserKeepsValid(s, Applicant(s, form, hash));
        }
      }
      Ok(s')
  }

  /** Appending a user whose id, username and email are all new, with a known role,
      keeps every constraint of the store. */
  lemma AddUserKeepsValid(s: Store, u: User)
    requires Valid(s)
    requires u.id == NextUserId(s) && KnownRole(u.role)
    requires !HasUsername(s.users, u.username) && !HasEmail(s.users, u.email)
    ensures Valid(s.(users := s.users + [u]))
  {
    var s' := s.(users := s.users + [u]);
    AppendUserValid(s.users, u);
    forall i | 0 <= i < |s.purchases| ensures FindUser(s'.users, s.purchases[i].userId).Some? {
      FindUserAppend(s.users, [u], s.purchases[i].userId);
    }
    forall i | 0 <= i < |s.auditLogs| ensures LogLinked(s', s.auditLogs[i]) {
      FindUserAppend(s.users, [u], s.auditLogs[i].userId.value);
    }
  }

  lemma AppendUserValid(users: seq<User>, u: User)
    requires ValidUsers(users) && KnownRole(u.role)
    requires forall i :: 0 <= i < |users| ==> users[i].id < u.id
    requires !HasUsername(users, u.username) && !HasEmail(users, u.email)
    ensures ValidUsers(users + [u])
  {
  }
}

=== FILE: seed.dfy ===
/** Start-up seeding: the starter categories and the three development accounts, each
    inserted only when absent, so that running the seeding again changes nothing. */
module Seed {

  import opened Wrappers
  import opened Models

  const StarterCategories: seq<string> := ["Office Supplies", "Electronics", "Services", "Miscellaneous"]

  /** Adds a category called `name` with an empty description, unless one exists. */
  function SeedCategory(categories: seq<Category>, name: string): (r: seq<Category>)
    ensures HasCategoryName(r, name)
    ensures |categories| <= |r| && r[..|categories|] == categories
    ensures HasCategoryName(categories, name) ==> r == categories
    ensures !HasCategoryName(categories, name) ==>
      |r| == |categories| + 1 && r[|categories|].name == name && r[|categories|].description == Some("")
  {
    if HasCategoryName(categories, name) then categories
    else
      var r := categories + [Category(NextId(categories, (c: Category) => c.id), name, Some(""))];
      assert r[|categories|].name == name;
      r
  }

  function SeedCategoryList(categories: seq<Category>, names: seq<string>): (r: seq<Category>)
    decreases |names|
    ensures |categories| <= |r| && r[..|categories|] == categories
  {
    if names == [] then categories
    else SeedCategoryList(SeedCategory(categories, names[0]), names[1..])
  }

  /** `seed_categories()`: only the `categories` table changes. */
  function SeedCategories(s: Store): (r: Store)
    ensures r.users == s.users && r.purchases == s.purchases && r.auditLogs == s.auditLogs
    ensures |s.categories| <= |r.categories| && r.categories[..|s.categories|] == s.categories
  {
    s.(categories := SeedCategoryList(s.categories, StarterCategories))
  }

  /** Seeding keeps names unique and ids distinct. */
  lemma SeedCategoryKeepsValid(categories: seq<Category>, name: string)
    requires ValidCategories(categories)
    ensures ValidCategories(SeedCategory(categories, name))
  {
  }

  /** After seeding, every name seeded and every name there before is present; nothing
      is there that was neither. */
  lemma {:induction false} SeedCategoryListNames(categories: seq<Category>, names: seq<string>)
    requires ValidCategories(categories)
    ensures ValidCategories(SeedCategoryList(categories, names))
    ensures forall n :: HasCategoryName(SeedCategoryList(categories, names), n) <==>
      HasCategoryName(categories, n) || n in names
    decreases |names|
  {
    if names != [] {
      var next := SeedCategory(categories, names[0]);
      SeedCategoryKeepsValid(categories, names[0]);
      SeedCategoryListNames(next, names[1..]);
      forall n ensures HasCategoryName(next, n) <==> HasCategoryName(categories, n) || n == names[0] {
        if HasCategoryName(categories, n) {
          var i :| 0 <= i < |categories| && categories[i].name == n;
          assert next[i].name == n;
        }
        if HasCategoryName(next, n) && n != names[0] {
          var i :| 0 <= i < |next| && next[i].name == n;
          assert categories[i].name == n;
        }
      }
      assert forall n :: n in names <==> n == names[0] || n in names[1..];
    }
  }

  /** A list whose names are all present already is seeded without change. */
  lemma {:induction false} SeedCategoryListPresent(categories: seq<Category>, names: seq<string>)
    requires forall n :: n in names ==> HasCategoryName(categories, n)
    ensures SeedCategoryList(categories, names) == categories
    decreases |names|
  {
    if names != [] {
      assert names[0] in names;
      SeedCategoryListPresent(categories, names[1..]);
    }
  }

  /** Seeding categories keeps the store valid, leaves every starter category present,
      and a second run changes nothing. */
  lemma SeedCategoriesProperties(s: Store)
    requires Valid(s)
    ensures Valid(SeedCategories(s))
    ensures forall n :: n in StarterCategories ==> HasCategoryName(SeedCategories(s).categories, n)
    ensures SeedCategories(SeedCategories(s)) == SeedCategories(s)
  {
    var r := SeedCategories(s);
    SeedCategoryListNames(s.categories, StarterCategories);
    SeedCategoryListPresent(r.categories, StarterCategories);
    CategoriesDoNotLink(s, r.categories);
  }

  /** Whether the store is linked does not depend on its categories. */
  lemma CategoriesDoNotLink(s: Store, categories: seq<Category>)
    ensures Linked(s.(categories := categories)) == Linked(s)
  {
    var r := s.(categories := categories);
    assert forall l :: LogLinked(r, l) == LogLinked(s, l);
  }

  /** A development login, created with a fixed password. */
  datatype Account = Account(username: string, email: string, password: string, role: string)

  const DevAccounts: seq<Account> := [
    Account("shopper", "shopper@dev.com", "shopper123", ShopperRole),
    Account("admin", "admin@dev.com", "admin123", AdminRole),
    Account("dev", "dev@dev.com", "dev123", DevRole)]

  /** The `unique=True` email column refuses an account whose email is already in use;
      the exception escapes and nothing is committed. */
  datatype SeedError = EmailInUse(email: string)

  /** Adds the account unless its username exists. */
  function SeedUser(users: seq<User>, a: Account, hash: string -> string): (r: Result<seq<User>, SeedError>)
    ensures HasUsername(users, a.username) ==> r == Ok(users)
    ensures !HasUsername(users, a.username) && HasEmail(users, a.email) ==> r == Err(EmailInUse(a.email))
    ensures !HasUsername(users, a.username) && !HasEmail(users, a.email) ==>
      r.Ok? && |r.value| == |users| + 1 && r.value[..|users|] == users
      && var u := r.value[|users|];
      u.username == a.username && u.email == a.email && u.role == a.role && u.passwordHash == hash(a.password)
  {
    if HasUsername(users, a.username) then Ok(users)
    else if HasEmail(users, a.email) then Err(EmailInUse(a.email))
    else
      var u := User(NextId(users, (u: User) => u.id), a.username, a.email, hash(a.password), a.role);
      assert (users + [u])[..|users|] == users;
      Ok(users + [u])
  }

  function SeedUserList(users: seq<User>, accounts: seq<Account>, hash: string -> string): (r: Result<seq<User>, SeedError>)
    decreases |accounts|
    ensures r.Ok? ==> |users| <= |r.value| && r.value[..|users|] == users
  {
    if accounts == [] then Ok(users)
    else
      var next :- SeedUser(users, accounts[0], hash);
      var r := SeedUserList(next, accounts[1..], hash);
      if r.Ok? then
        assert r.value[..|users|] == r.value[..|next|][..|users|];
        r
      else r
  }

  /** `seed_dev_users()` with the password hasher `hash`: only `users` changes, and only
      when no account clashes on email. */
  function SeedDevUsers(s: Store, hash: string -> string): (r: Result<Store, SeedError>)
    ensures r.Ok? ==> r.value.categories == s.categories && r.value.purchases == s.purchases
    ensures r.Ok? ==> r.value.auditLogs == s.auditLogs
    ensures r.Ok? ==> |s.users| <= |r.value.users| && r.value.users[..|s.users|] == s.users
  {
    var users :- SeedUserList(s.users, DevAccounts, hash);
    Ok(s.(users := users))
  }

  /** Adding an account whose username and email are both new keeps the users valid. */
  lemma SeedUserKeepsValid(users: seq<User>, a: Account, hash: string -> string)
    requires ValidUsers(users) && KnownRole(a.role)
    requires SeedUser(users, a, hash).Ok?
    ensures ValidUsers(SeedUser(users, a, hash).value)
  {
    if !HasUsername(users, a.username) {
      var r := SeedUser(users, a, hash).value;
      forall i | 0 <= i < |users| ensures r[i] == users[i] && r[i].username != a.username && r[i].email != a.email {
        assert r[..|users|][i] == users[i];
      }
    }
  }

  /** Seeding accounts of known roles keeps the users valid and leaves every account's
      username present. */
  lemma {:induction false} SeedUserListProperties(users: seq<User>, accounts: seq<Account>, hash: string -> string)
    requires ValidUsers(users)
    requires forall k :: 0 <= k < |accounts| ==> KnownRole(accounts[k].role)
    ensures SeedUserList(users, accounts, hash).Ok? ==> ValidUsers(SeedUserList(users, accounts, hash).value)
    ensures SeedUserList(users, accounts, hash).Ok? ==>
      forall k :: 0 <= k < |accounts| ==> HasUsername(SeedUserList(users, accounts, hash).value, accounts[k].username)
    decreases |accounts|
  {
    if accounts != [] {
      var first := SeedUser(users, accounts[0], hash);
      if first.Ok? {
        var next := first.value;
        SeedUserKeepsValid(users, accounts[0], hash);
        assert HasUsername(next, accounts[0].username) by {
          if HasUsername(users, accounts[0].username) {
          } else {
            assert next[|users|].username == accounts[0].username;
          }
        }
        SeedUserListProperties(next, accounts[1..], hash);
        var r := SeedUserList(users, accounts, hash);
        if r.Ok? {
          assert r == SeedUserList(next, accounts[1..], hash);
          forall k | 0 <= k < |accounts| ensures HasUsername(r.value, accounts[k].username) {
            if k == 0 {
              var i :| 0 <= i < |next| && next[i].username == accounts[0].username;
              assert r.value[..|next|][i] == next[i];
            } else {
              assert accounts[k] == accounts[1..][k - 1];
            }
          }
        }
      }
    }
  }

  /** A list whose usernames are all present already is seeded without change. */
  lemma {:induction false} SeedUserListPresent(users: seq<User>, accounts: seq<Account>, hash: string -> string)
    requires forall k :: 0 <= k < |accounts| ==> HasUsername(users, accounts[k].username)
    ensures SeedUserList(users, accounts, hash) == Ok(users)
    decreases |accounts|
  {
    if accounts != [] {
      assert HasUsername(users, accounts[0].username);
      SeedUserListPresent(users, accounts[1..], hash);
    }
  }

  /** A username or email is present after appending `u` exactly when it was present
      before or is `u`'s. */
  lemma AppendUser(users: seq<User>, u: User)
    ensures forall x :: HasUsername(users + [u], x) <==> HasUsername(users, x) || u.username == x
    ensures forall e :: HasEmail(users + [u], e) <==> HasEmail(users, e) || u.email == e
  {
    var r := users + [u];
    assert r[|users|] == u;
    forall x ensures HasUsername(r, x) <==> HasUsername(users, x) || u.username == x {
      if HasUsername(users, x) {
        var i :| 0 <= i < |users| && users[i].username == x;
        assert r[i] == users[i];
      }
    }
    forall e ensures HasEmail(r, e) <==> HasEmail(users, e) || u.email == e {
      if HasEmail(users, e) {
        var i :| 0 <= i < |users| && users[i].email == e;
        assert r[i] == users[i];
      }
    }
  }

  /** Accounts that share no username and no email with each other. */
  predicate Separate(accounts: seq<Account>)
  {
    forall j, k :: 0 <= j < k < |accounts| ==>
      accounts[j].username != accounts[k].username && accounts[j].email != accounts[k].email
  }

  /** An account clashes when its username is new but its email is already taken. */
  predicate Clashes(users: seq<User>, a: Account)
  {
    !HasUsername(users, a.username) && HasEmail(users, a.email)
  }

  /** Seeding separate accounts fails exactly when one of them clashes with the users
      there before: the accounts added on the way never clash with each other. */
  lemma {:induction false} SeedUserListFails(users: seq<User>, accounts: seq<Account>, hash: string -> string)
    requires Separate(accounts)
    ensures SeedUserList(users, accounts, hash).Err? <==> exists k :: 0 <= k < |accounts| && Clashes(users, accounts[k])
    decreases |accounts|
  {
    if accounts != [] {
      var a := accounts[0];
      var rest := accounts[1..];
      assert Separate(rest) by {
        forall j, k | 0 <= j < k < |rest|
          ensures rest[j].username != rest[k].username && rest[j].email != rest[k].email
        {
          assert rest[j] == accounts[j + 1] && rest[k] == accounts[k + 1];
        }
      }
      assert forall k :: 0 <= k < |rest| ==> rest[k] == accounts[k + 1];
      if HasUsername(users, a.username) {
        SeedUserListFails(users, rest, hash);
        if exists k :: 0 <= k < |accounts| && Clashes(users, accounts[k]) {
          var k :| 0 <= k < |accounts| && Clashes(users, accounts[k]);
          assert Clashes(users, rest[k - 1]);
        }
      } else if HasEmail(users, a.email) {
        assert Clashes(users, accounts[0]);
      } else {
        var next := SeedUser(users, a, hash).value;
        assert next == users + [next[|users|]];
        AppendUser(users, next[|users|]);
        SeedUserListFails(next, rest, hash);
        forall k | 0 <= k < |rest| ensures Clashes(next, rest[k]) <==> Clashes(users, rest[k]) {
          assert rest[k].username != a.username && rest[k].email != a.email;
        }
        if exists k :: 0 <= k < |accounts| && Clashes(users, accounts[k]) {
          var k :| 0 <= k < |accounts| && Clashes(users, accounts[k]);
          assert Clashes(next, rest[k - 1]);
        }
      }
    }
  }

  /** Seeding the development accounts keeps the store valid, leaves the three
      usernames present, and a second run changes nothing. */
  lemma SeedDevUsersProperties(s: Store, hash: string -> string)
    requires Valid(s)
    requires SeedDevUsers(s, hash).Ok?
    ensures Valid(SeedDevUsers(s, hash).value)
    ensures forall k :: 0 <= k < |DevAccounts| ==> HasUsername(SeedDevUsers(s, hash).value.users, DevAccounts[k].username)
    ensures SeedDevUsers(SeedDevUsers(s, hash).value, hash) == SeedDevUsers(s, hash)
  {
    var r := SeedDevUsers(s, hash).value;
    SeedUserListProperties(s.users, DevAccounts, hash);
    SeedUserListPresent(r.users, DevAccounts, hash);
    forall i | 0 <= i < |s.purchases| ensures FindUser(r.users, s.purchases[i].userId) == FindUser(s.users, s.purchases[i].userId) {
      assert r.users == s.users + r.users[|s.users|..];
      FindUserAppend(s.users, r.users[|s.users|..], s.purchases[i].userId);
    }
    forall i | 0 <= i < |s.auditLogs| ensures LogLinked(r, s.auditLogs[i]) {
      assert r.users == s.users + r.users[|s.users|..];
      FindUserAppend(s.users, r.users[|s.users|..], s.auditLogs[i].userId.value);
    }
  }

  /** Seeding the development accounts fails exactly when one of them has a username
      not yet taken and an email already in use. */
  lemma SeedDevUsersFails(s: Store, hash: string -> string)
    ensures SeedDevUsers(s, hash).Err? <==> exists k :: 0 <= k < |DevAccounts| && Clashes(s.users, DevAccounts[k])
  {
    SeedUserListFails(s.users, DevAccounts, hash);
  }
}

=== FILE: sorting.dfy ===
/** Stable insertion sort under a caller-chosen order. The store's `ORDER BY` leaves the
    relative order of equal keys open; the model resolves it by insertion order. */
module Sorting {

  /** `le(a, b)`: `a` may be listed before `b`. Total and transitive. */
  ghost predicate TotalPreorder<T(!new)>(le: (T, T) -> bool)
  {
    && (forall a, b :: le(a, b) || le(b, a))
    && (forall a, b, c :: le(a, b) && le(b, c) ==> le(a, c))
  }

  predicate SortedBy<T>(s: seq<T>, le: (T, T) -> bool)
  {
    forall i, j :: 0 <= i < j < |s| ==> le(s[i], s[j])
  }

  /** No two elements of `s` share a key. */
  predicate DistinctBy<T, K(==)>(s: seq<T>, key: T -> K)
  {
    forall i, j :: 0 <= i < j < |s| ==> key(s[i]) != key(s[j])
  }

  /** A sorted sequence stays sorted with an element in front that may precede all of it. */
  lemma ConsSorted<T>(y: T, t: seq<T>, le: (T, T) -> bool)
    requires SortedBy(t, le)
    requires forall j :: 0 <= j < |t| ==> le(y, t[j])
    ensures SortedBy([y] + t, le)
  {
    var r := [y] + t;
    forall i, j | 0 <= i < j < |r| ensures le(r[i], r[j]) {
      assert r[j] == t[j - 1];
      if i > 0 {
        assert r[i] == t[i - 1];
      }
    }
  }

  /** Puts `x` in front of the first element it may precede. */
  function Insert<T(!new)>(x: T, s: seq<T>, le: (T, T) -> bool): (r: seq<T>)
    requires TotalPreorder(le)
    requires SortedBy(s, le)
    ensures multiset(r) == multiset(s) + multiset{x}
    ensures SortedBy(r, le)
  {
    if s == [] then [x]
    else if le(x, s[0]) then
      assert forall j :: 0 <= j < |s| ==> le(s[0], s[j]);
      ConsSorted(x, s, le);
      [x] + s
    else
      var rest := Insert(x, s[1..], le);
      assert SortedBy(s[1..], le);
      forall j | 0 <= j < |rest| ensures le(s[0], rest[j]) {
        assert rest[j] in multiset(rest);
        if rest[j] != x {
          var k :| 0 <= k < |s[1..]| && s[1..][k] == rest[j];
          assert s[k + 1] == rest[j];
        }
      }
      ConsSorted(s[0], rest, le);
      assert s == [s[0]] + s[1..];
      [s[0]] + rest
  }

  /** The elements of `s` in an order that respects `le`. */
  function Sort<T(!new)>(s: seq<T>, le: (T, T) -> bool): (r: seq<T>)
    requires TotalPreorder(le)
    ensures multiset(r) == multiset(s)
    ensures SortedBy(r, le)
  {
    if s == [] then []
    else
      assert s == [s[0]] + s[1..];
      Insert(s[0], Sort(s[1..], le), le)
  }

  /** Distinct keys stay distinct with an element in front whose key is new. */
  lemma ConsDistinct<T, K>(y: T, t: seq<T>, key: T -> K)
    requires DistinctBy(t, key)
    requires forall j :: 0 <= j < |t| ==> key(t[j]) != key(y)
    ensures DistinctBy([y] + t, key)
  {
    var r := [y] + t;
    forall i, j | 0 <= i < j < |r| ensures key(r[i]) != key(r[j]) {
      assert r[j] == t[j - 1];
      if i > 0 {
        assert r[i] == t[i - 1];
      }
    }
  }

  lemma {:induction false} InsertKeepsDistinct<T(!new), K>(x: T, s: seq<T>, le: (T, T) -> bool, key: T -> K)
    requires TotalPreorder(le) && SortedBy(s, le)
    requires DistinctBy(s, key)
    requires forall i :: 0 <= i < |s| ==> key(s[i]) != key(x)
    ensures DistinctBy(Insert(x, s, le), key)
  {
    if s == [] {
    } else if le(x, s[0]) {
      ConsDistinct(x, s, key);
    } else {
      var tail := s[1..];
      assert SortedBy(tail, le);
      assert DistinctBy(tail, key);
      assert forall i :: 0 <= i < |tail| ==> tail[i] == s[i + 1];
      InsertKeepsDistinct(x, tail, le, key);
      var rest := Insert(x, tail, le);
      forall j | 0 <= j < |rest| ensures key(rest[j]) != key(s[0]) {
        assert rest[j] in multiset(rest);
        if rest[j] != x {
          var k :| 0 <= k < |tail| && tail[k] == rest[j];
          assert s[k + 1] == rest[j];
        }
      }
      ConsDistinct(s[0], rest, key);
    }
  }

  /** Sorting rows whose keys are distinct keeps their keys distinct. */
  lemma {:induction false} SortKeepsDistinct<T(!new), K>(s: seq<T>, le: (T, T) -> bool, key: T -> K)
    requires TotalPreorder(le)
    requires DistinctBy(s, key)
    ensures DistinctBy(Sort(s, le), key)
  {
    if s != [] {
      var sorted := Sort(s[1..], le);
      SortKeepsDistinct(s[1..], le, key);
      forall i | 0 <= i < |sorted| ensures key(sorted[i]) != key(s[0]) {
        assert sorted[i] in multiset(s[1..]);
        var j :| 0 <= j < |s[1..]| && s[1..][j] == sorted[i];
        assert s[j + 1] == sorted[i];
      }
      InsertKeepsDistinct(s[0], sorted, le, key);
    }
  }
}

=== FILE: text.dfy ===
/** Character classes and the few string operations the request handlers rely on:
    Python's `str.strip()`, ASCII lower-casing and searching for a character. */
module Text {

  import opened Wrappers

  /** Python's `str.isspace()`: the code points with bidirectional class WS, B or S,
      or general category Zs. */
  predicate IsSpace(c: char)
  {
    var n := c as int;
    (0x09 <= n <= 0x0D) || (0x1C <= n <= 0x20) || n == 0x85 || n == 0xA0 || n == 0x1680
    || (0x2000 <= n <= 0x200A) || n == 0x2028 || n == 0x2029 || n == 0x202F || n == 0x205F
    || n == 0x3000
  }

  predicate AllSpace(s: string)
  {
    forall i :: 0 <= i < |s| ==> IsSpace(s[i])
  }

  /** `r` is what remains of `s` once the whitespace before index `i` and after
      index `i + |r|` has been cut away. */
  predicate StrippedAt(s: string, r: string, i: int)
  {
    0 <= i && i + |r| <= |s| && r == s[i..i + |r|]
    && AllSpace(s[..i]) && AllSpace(s[i + |r|..])
  }

  function StripLeft(s: string): (r: string)
    ensures exists i :: StrippedAt(s, r, i) && i + |r| == |s|
    ensures r == [] || !IsSpace(r[0])
  {
    if |s| > 0 && IsSpace(s[0]) then
      var r := StripLeft(s[1..]);
      ghost var i :| StrippedAt(s[1..], r, i) && i + |r| == |s| - 1;
      assert StrippedAt(s, r, i + 1);
      r
    else
      assert StrippedAt(s, s, 0);
      s
  }

  function StripRight(s: string): (r: string)
    ensures StrippedAt(s, r, 0)
    ensures r == [] || !IsSpace(r[|r| - 1])
  {
    if |s| > 0 && IsSpace(s[|s| - 1]) then
      var r := StripRight(s[..|s| - 1]);
      assert s[..|s| - 1][|r|..] + [s[|s| - 1]] == s[|r|..];
      r
    else
      s
  }

  /** Python's `s.strip()`: `s` without its leading and trailing whitespace. */
  function Strip(s: string): (r: string)
    ensures exists i :: StrippedAt(s, r, i)
    ensures r == [] || (!IsSpace(r[0]) && !IsSpace(r[|r| - 1]))
  {
    var l := StripLeft(s);
    var r := StripRight(l);
    ghost var i :| StrippedAt(s, l, i) && i + |l| == |s|;
    assert StrippedAt(s, r, i) by {
      assert s[i + |r|..] == l[|r|..];
    }
    r
  }

  /** Stripping text with no whitespace at either end changes nothing. */
  lemma StripUnchanged(s: string)
    requires s == [] || (!IsSpace(s[0]) && !IsSpace(s[|s| - 1]))
    ensures Strip(s) == s
  {
    assert StripLeft(s) == s;
    assert StripRight(s) == s;
  }

  /** Stripping leaves nothing exactly when the text is all whitespace. */
  lemma StripEmpty(s: string)
    ensures AllSpace(s) <==> Strip(s) == []
  {
    var r := Strip(s);
    var i :| StrippedAt(s, r, i);
    if r == [] {
      forall k | 0 <= k < |s| ensures IsSpace(s[k]) {
        if k < i { assert s[..i][k] == s[k]; } else { assert s[i..][k - i] == s[k]; }
      }
    } else {
      assert r[0] == s[i];
    }
  }

  /** Stripping whitespace-free text changes nothing; stripping pure whitespace leaves nothing. */
  lemma StripExact(s: string)
    ensures s == [] || (!IsSpace(s[0]) && !IsSpace(s[|s| - 1])) ==> Strip(s) == s
    ensures AllSpace(s) <==> Strip(s) == []
  {
    if s == [] || (!IsSpace(s[0]) && !IsSpace(s[|s| - 1])) {
      StripUnchanged(s);
    }
    StripEmpty(s);
  }

  predicate IsAsciiUpper(c: char)
  {
    'A' <= c <= 'Z'
  }

  /** Lower-cases the ASCII letters and leaves every other character as it is. */
  function AsciiLower(c: char): (r: char)
    ensures IsAsciiUpper(c) ==> r as int == c as int + 32
    ensures !IsAsciiUpper(c) ==> r == c
  {
    if IsAsciiUpper(c) then (c as int + 32) as char else c
  }

  function Lower(s: string): (r: string)
    ensures |r| == |s|
    ensures forall i :: 0 <= i < |s| ==> r[i] == AsciiLower(s[i])
  {
    if s == [] then [] else [AsciiLower(s[0])] + Lower(s[1..])
  }

  /** The index of the first occurrence of `c` in `s`. */
  function IndexOf(s: string, c: char): (r: Option<nat>)
    ensures r.None? <==> c !in s
    ensures r.Some? ==> r.value < |s| && s[r.value] == c && c !in s[..r.value]
  {
    if s == [] then None
    else if s[0] == c then Some(0)
    else
      match IndexOf(s[1..], c)
      case None => None
      case Some(k) =>
        assert s[..k + 1] == [s[0]] + s[1..][..k];
        Some(k + 1)
  }

  /** The index of the last occurrence of `c` in `s`. */
  function LastIndexOf(s: string, c: char): (r: Option<nat>)
    ensures r.None? <==> c !in s
    ensures r.Some? ==> r.value < |s| && s[r.value] == c && c !in s[r.value + 1..]
  {
    if s == [] then None
    else if s[|s| - 1] == c then Some(|s| - 1)
    else
      var init := s[..|s| - 1];
      match LastIndexOf(init, c)
      case None =>
        assert s == init + [s[|s| - 1]];
        None
      case Some(k) =>
        assert s[k + 1..] == init[k + 1..] + [s[|s| - 1]];
        Some(k)
  }
}

=== FILE: upload.dfy ===
/** The `upload` handler: a shopper submits one purchase, optionally with a receipt
    file. The form is validated field by field; a valid one adds the purchase and its
    `create` audit entry in one transaction, and any exception rolls both back. */
module Upload {

  import opened Wrappers
  import opened Models
  import opened Forms
  import opened Numbers
  import opened Dates
  import Text
  import Access

  /** `ALLOWED_EXTENSIONS` of the application's configuration. */
  const AllowedExtensions: set<string> := {"pdf", "jpg", "jpeg", "png"}

  /** Index `i` holds the last dot of `filename`. */
  predicate LastDotAt(filename: string, i: int)
  {
    0 <= i < |filename| && filename[i] == '.' && '.' !in filename[i + 1..]
  }

  /** `allowed_file`: the name has a dot, and the text after its last dot, lower-cased,
      is one of the allowed extensions. */
  function AllowedFile(filename: string, extensions: set<string>): (r: bool)
    ensures r <==> exists i :: LastDotAt(filename, i) && Text.Lower(filename[i + 1..]) in extensions
  {
    match Text.LastIndexOf(filename, '.')
    case None => false
    case Some(k) =>
      assert LastDotAt(filename, k);
      NoDotAfterLast(filename, k);
      forall i | LastDotAt(filename, i) ensures i == k {
        NoDotAfterLast(filename, i);
      }
      Text.Lower(filename[k + 1..]) in extensions
  }

  lemma NoDotAfterLast(filename: string, i: int)
    requires LastDotAt(filename, i)
    ensures forall j :: i < j < |filename| ==> filename[j] != '.'
  {
    forall j | i < j < |filename| ensures filename[j] != '.' {
      assert filename[i + 1..][j - i - 1] == filename[j];
    }
  }

  /** An upper-case extension is accepted. */
  lemma AllowedFileIgnoresCase()
    ensures AllowedFile("receipt.PDF", AllowedExtensions)
  {
    assert Text.LastIndexOf("receipt.PDF", '.') == Some(7);
    assert "receipt.PDF"[8..] == "PDF";
    assert Text.Lower("PDF") == "pdf";
  }

  /** Only the text after the last dot counts. */
  lemma AllowedFileUsesLastDot()
    ensures !AllowedFile("scan.pdf.zip", AllowedExtensions)
  {
    assert Text.LastIndexOf("scan.pdf.zip", '.') == Some(8);
    assert "scan.pdf.zip"[9..] == "zip";
    assert Text.Lower("zip") == "zip";
  }

  /** A name without a dot has no extension. */
  lemma AllowedFileNeedsDot()
    ensures !AllowedFile("pdf", AllowedExtensions)
  {
    assert '.' !in "pdf";
  }

  datatype UploadError =
    | MissingRequired   // description, amount, vendor or date left empty
    | InvalidAmount     // not a number, or not above zero
    | InvalidQuantity   // not an integer, or not above zero
    | InvalidDate       // not YYYY-MM-DD, or no such day
    | InvalidFileType   // an attachment whose extension is not allowed
    | Failed            // an exception while writing; the transaction was rolled back

  /** The collaborators the handler calls but the model does not own. */
  datatype Environment = Environment(
    allowedExtensions: set<string>,        // the configured extension allow-list
    parseFloat: string -> Option<real>,    // Python's `float(text)`; None where it raises
    savedPath: string,                     // where the attachment was saved, "uploads/<name>"
    fault: bool)                           // the file system or the store raised while writing

  /** The validated fields of an upload form. */
  datatype Draft = Draft(
    description: string,
    amount: real,
    quantity: int,
    vendor: string,
    date: Date,
    dateText: string,
    purchaseType: string,
    categoryText: string,
    notes: string,
    paid: int,
    attachmentUrl: Option<string>)

  /** An attachment is considered when a file part was sent with a non-empty filename. */
  predicate HasFile(attachment: Option<string>)
  {
    attachment.Some? && attachment.value != ""
  }

  /** The form fields as the handler reads them: stripped, with the handler's defaults
      for fields that were not sent. `purchase_type` alone is not stripped. */
  datatype Fields = Fields(
    description: string,
    amount: string,
    quantity: string,
    vendor: string,
    date: string,
    purchaseType: string,
    categoryId: string,
    notes: string,
    paid: int)

  function ReadFields(form: Form): Fields
  {
    Fields(
      Field(form, "description", ""), Field(form, "amount", ""), Field(form, "quantity", "1"),
      Field(form, "vendor", ""), Field(form, "date_collected", ""),
      Get(form, "purchase_type", DefaultPurchaseType), Field(form, "category_id", ""),
      Field(form, "notes", ""), if Checked(form, "paid_on_collection") then 1 else 0)
  }

  /** The handler's checks, one predicate each. */
  predicate RequiredGiven(f: Fields)
  {
    f.description != "" && f.amount != "" && f.vendor != "" && f.date != ""
  }

  predicate AmountOk(f: Fields, env: Environment)
  {
    env.parseFloat(f.amount).Some? && env.parseFloat(f.amount).value > 0.0
  }

  predicate QuantityOk(f: Fields)
  {
    ParseInt(f.quantity).Some? && ParseInt(f.quantity).value > 0
  }

  predicate DateOk(f: Fields)
  {
    ParseDate(f.date).Some?
  }

  predicate FileOk(attachment: Option<string>, env: Environment)
  {
    HasFile(attachment) ==> AllowedFile(attachment.value, env.allowedExtensions)
  }

  /** The checks of the handler, in the order it makes them; the first failing one
      decides the error. */
  function Validate(f: Fields, attachment: Option<string>, env: Environment): (r: Result<Draft, UploadError>)
    ensures r.Ok? ==> r.value.amount > 0.0 && r.value.quantity > 0 && ValidDate(r.value.date)
    ensures r.Ok? ==> r.value.description == f.description != "" && r.value.vendor == f.vendor != ""
    ensures r.Ok? ==> r.value.categoryText == f.categoryId && r.value.paid == f.paid
    ensures r.Ok? ==> r.value.purchaseType == f.purchaseType && r.value.notes == f.notes
    ensures r.Ok? ==> r.value.attachmentUrl == (if HasFile(attachment) then Some(env.savedPath) else None)
    ensures r == Err(MissingRequired) <==> !RequiredGiven(f)
    ensures r == Err(InvalidAmount) <==> RequiredGiven(f) && !AmountOk(f, env)
    ensures r == Err(InvalidQuantity) <==> RequiredGiven(f) && AmountOk(f, env) && !QuantityOk(f)
    ensures r == Err(InvalidDate) <==> RequiredGiven(f) && AmountOk(f, env) && QuantityOk(f) && !DateOk(f)
    ensures r == Err(InvalidFileType) <==>
      RequiredGiven(f) && AmountOk(f, env) && QuantityOk(f) && DateOk(f) && !FileOk(attachment, env)
    ensures r != Err(Failed)
  {
    if f.description == "" || f.amount == "" || f.vendor == "" || f.date == "" then Err(MissingRequired)
    else
      var amount := env.parseFloat(f.amount);
      if amount.None? || amount.value <= 0.0 then Err(InvalidAmount)
      else
        var quantity := ParseInt(f.quantity);
        if quantity.None? || quantity.value <= 0 then Err(InvalidQuantity)
        else
          var date := ParseDate(f.date);
          if date.None? then Err(InvalidDate)
          else if HasFile(attachment) && !AllowedFile(attachment.value, env.allowedExtensions) then Err(InvalidFileType)
          else
            Ok(Draft(
              f.description, amount.value, quantity.value, f.vendor, date.value, f.date,
              f.purchaseType, f.categoryId, f.notes, f.paid,
              if HasFile(attachment) then Some(env.savedPath) else None))
  }

  /** The form passes every check of the handler. */
  predicate Acceptable(f: Fields, attachment: Option<string>, env: Environment)
  {
    RequiredGiven(f) && AmountOk(f, env) && QuantityOk(f) && DateOk(f) && FileOk(attachment, env)
  }

  /** A form is rejected unless it passes every check; one that passes is turned into
      a draft carrying exactly the values it parsed to. */
  lemma ValidateAcceptsExactly(f: Fields, attachment: Option<string>, env: Environment)
    ensures Validate(f, attachment, env).Ok? <==> Acceptable(f, attachment, env)
    ensures Validate(f, attachment, env).Ok? ==>
      var d := Validate(f, attachment, env).value;
      && Some(d.amount) == env.parseFloat(f.amount)
      && Some(d.quantity) == ParseInt(f.quantity)
      && Some(d.date) == ParseDate(f.date)
  {
    var amount := env.parseFloat(f.amount);
    var quantity := ParseInt(f.quantity);
    var date := ParseDate(f.date);
    if f.description == "" || f.amount == "" || f.vendor == "" || f.date == "" {
    } else if amount.None? || amount.value <= 0.0 {
    } else if quantity.None? || quantity.value <= 0 {
    } else if date.None? {
    } else {
      assert Validate(f, attachment, env).Ok? ==> Validate(f, attachment, env).value.date == date.value;
    }
  }

  /** `int(category_id) if category_id else None`. A `ValueError` there, or an integer
      the column cannot hold (an `OverflowError` at the flush), is caught by the
      handler's catch-all and rolls the transaction back. */
  function CategoryReference(text: string): (r: Result<Option<int>, UploadError>)
    ensures text == "" ==> r == Ok(None)
    ensures text != "" ==> (r.Ok? <==> ParseInt(text).Some? && FitsInteger(ParseInt(text).value))
    ensures r.Ok? && text != "" ==> r.value == ParseInt(text)
    ensures r.Err? ==> r.error == Failed
  {
    if text == "" then Ok(None)
    else match ParseInt(text)
      case None => Err(Failed)
      case Some(n) => if FitsInteger(n) then Ok(Some(n)) else Err(Failed)
  }

  /** The purchase row an upload inserts. */
  function NewPurchase(s: Store, user: User, d: Draft, category: Option<int>): Purchase
  {
    Purchase(NextPurchaseId(s), user.id, d.description, d.amount, d.quantity, d.vendor,
             d.date, d.purchaseType, category, d.attachmentUrl, Some(d.notes), Some(d.paid))
  }

  /** The audit entry that goes with it. */
  function NewAuditLog(s: Store, user: User, d: Draft): AuditLog
  {
    AuditLog(NextAuditLogId(s), Some(NextPurchaseId(s)), Some(user.id), CreateAction,
             Some(Snapshot(d.description, d.amount, d.quantity, d.vendor, d.dateText,
                           d.purchaseType, d.categoryText, d.notes, d.paid)))
  }

  /** `s'` is `s` with one more purchase by `uid` and one more audit entry recording
      its creation; no other row changes. */
  predicate OneUploadAdded(s: Store, s': Store, uid: int)
  {
    && s'.users == s.users && s'.categories == s.categories
    && |s'.purchases| == |s.purchases| + 1 && s'.purchases[..|s.purchases|] == s.purchases
    && |s'.auditLogs| == |s.auditLogs| + 1 && s'.auditLogs[..|s.auditLogs|] == s.auditLogs
    && var p := s'.purchases[|s.purchases|];
       var l := s'.auditLogs[|s.auditLogs|];
       && p.userId == uid
       && (forall i :: 0 <= i < |s.purchases| ==> s.purchases[i].id != p.id)
       && l.action == CreateAction && l.purchaseId == Some(p.id) && l.userId == Some(uid)
  }

  /** The write: a purchase and its audit entry, together or not at all. A quantity
      the column cannot hold raises at the flush and rolls both back. */
  function Commit(s: Store, user: User, d: Draft, fault: bool): (r: Result<Store, UploadError>)
    ensures r.Ok? ==> OneUploadAdded(s, r.value, user.id)
    ensures r.Ok? <==> !fault && CategoryReference(d.categoryText).Ok? && FitsInteger(d.quantity)
    ensures r.Err? ==> r.error == Failed
    ensures r.Ok? ==> r.value.purchases[|s.purchases|] == NewPurchase(s, user, d, CategoryReference(d.categoryText).value)
  {
    var category :- CategoryReference(d.categoryText);
    if fault || !FitsInteger(d.quantity) then Err(Failed)
    else
      var p := NewPurchase(s, user, d, category);
      Ok(s.(purchases := s.purchases + [p], auditLogs := s.auditLogs + [NewAuditLog(s, user, d)]))
  }

  /** Handles an upload by `user`. A success adds exactly one purchase and one `create`
      audit entry pointing at it; every failure leaves the store as it was. */
  function Upload(s: Store, user: User, form: Form, attachment: Option<string>, env: Environment): (r: Result<Store, UploadError>)
    ensures r.Ok? ==> OneUploadAdded(s, r.value, user.id)
    ensures r.Ok? ==> ValidPurchase(r.value.purchases[|s.purchases|])
    ensures r.Ok? ==>
      var p := r.value.purchases[|s.purchases|];
      var f := ReadFields(form);
      && Some(p.amount) == env.parseFloat(f.amount) && Some(p.quantity) == ParseInt(f.quantity)
      && Some(p.dateCollected) == ParseDate(f.date)
      && p.description == f.description && p.vendor == f.vendor && p.purchaseType == f.purchaseType
      && p.notes == Some(f.notes) && p.paidOnCollection == Some(f.paid)
      && p.attachmentUrl == (if HasFile(attachment) then Some(env.savedPath) else None)
    ensures Validate(ReadFields(form), attachment, env).Err? ==> r == Err(Validate(ReadFields(form), attachment, env).error)
    ensures r.Err? && Acceptable(ReadFields(form), attachment, env) ==> r.error == Failed
    ensures r.Ok? <==> Acceptable(ReadFields(form), attachment, env) && !env.fault
                       && CategoryReference(ReadFields(form).categoryId).Ok?
                       && FitsInteger(ParseInt(ReadFields(form).quantity).value)
    ensures r.Ok? ==>
      var category := CategoryReference(ReadFields(form).categoryId);
      category.Ok? && r.value.purchases[|s.purchases|].categoryId == category.value
  {
    var f := ReadFields(form);
    ValidateAcceptsExactly(f, attachment, env);
    match Validate(f, attachment, env)
    case Err(e) => Err(e)
    case Ok(d) =>
      var r := Commit(s, user, d, env.fault);
      assert d.categoryText == f.categoryId;
      assert r.Ok? ==> r.value.purchases[|s.purchases|] == NewPurchase(s, user, d, CategoryReference(f.categoryId).value);
      r
  }

  /** Appending one upload whose uploader exists keeps every purchase and audit entry
      linked. */
  lemma UploadKeepsLinked(s: Store, s': Store, uid: int)
    requires Linked(s) && OneUploadAdded(s, s', uid)
    requires FindUser(s.users, uid).Some?
    ensures Linked(s')
  {
    var n := |s.purchases|;
    assert forall i :: 0 <= i < n ==> s'.purchases[i] == s.purchases[i] by {
      assert s'.purchases[..n] == s.purchases;
    }
    assert forall i :: 0 <= i < |s.auditLogs| ==> s'.auditLogs[i] == s.auditLogs[i] by {
      assert s'.auditLogs[..|s.auditLogs|] == s.auditLogs;
    }
    forall i | 0 <= i < |s'.auditLogs| ensures LogLinked(s', s'.auditLogs[i]) {
      if i < |s.auditLogs| {
        var l := s.auditLogs[i];
        assert LogLinked(s, l);
        var j :| 0 <= j < n && s.purchases[j].id == l.purchaseId.value;
        assert s'.purchases[j] == s.purchases[j];
      } else {
        assert s'.purchases[n].id == s'.auditLogs[i].purchaseId.value;
      }
    }
  }

  /** Committing a draft of a user of the store keeps every constraint of the store. */
  lemma CommitKeepsValid(s: Store, user: User, d: Draft, fault: bool)
    requires Valid(s) && user in s.users
    requires d.amount > 0.0 && d.quantity > 0 && ValidDate(d.date)
    requires Commit(s, user, d, fault).Ok?
    ensures Valid(Commit(s, user, d, fault).value)
  {
    var s' := Commit(s, user, d, fault).value;
    var l := s'.auditLogs[|s.auditLogs|];
    assert l == NewAuditLog(s, user, d);
    assert FindUser(s.users, user.id).Some? by {
      var k :| 0 <= k < |s.users| && s.users[k] == user;
    }
    AddedUploadValid(s, s', user.id);
  }

  /** One purchase and its audit entry, appended with fresh ids by an existing user,
      keep every constraint of the store. */
  lemma AddedUploadValid(s: Store, s': Store, uid: int)
    requires Valid(s) && OneUploadAdded(s, s', uid)
    requires FindUser(s.users, uid).Some?
    requires ValidPurchase(s'.purchases[|s.purchases|])
    requires forall i :: 0 <= i < |s.auditLogs| ==> s.auditLogs[i].id != s'.auditLogs[|s.auditLogs|].id
    ensures Valid(s')
  {
    var p := s'.purchases[|s.purchases|];
    var l := s'.auditLogs[|s.auditLogs|];
    UploadKeepsLinked(s, s', uid);
    assert s'.purchases == s.purchases + [p];
    AppendPurchaseValid(s.purchases, p);
    assert s'.auditLogs == s.auditLogs + [l];
    AppendLogDistinct(s.auditLogs, l);
  }

  lemma AppendPurchaseValid(ps: seq<Purchase>, p: Purchase)
    requires ValidPurchases(ps) && ValidPurchase(p)
    requires forall i :: 0 <= i < |ps| ==> ps[i].id != p.id
    ensures ValidPurchases(ps + [p])
  {
  }

  lemma AppendLogDistinct(logs: seq<AuditLog>, l: AuditLog)
    requires forall i, j :: 0 <= i < j < |logs| ==> logs[i].id != logs[j].id
    requires forall i :: 0 <= i < |logs| ==> logs[i].id != l.id
    ensures forall i, j :: 0 <= i < j < |logs + [l]| ==> (logs + [l])[i].id != (logs + [l])[j].id
  {
  }

  /** An upload by a user of the store keeps every constraint of the store. */
  lemma UploadKeepsValid(s: Store, user: User, form: Form, attachment: Option<string>, env: Environment)
    requires Valid(s) && user in s.users
    requires Upload(s, user, form, attachment, env).Ok?
    ensures Valid(Upload(s, user, form, attachment, env).value)
  {
    var d := Validate(ReadFields(form), attachment, env).value;
    CommitKeepsValid(s, user, d, env.fault);
  }

  /** Fields the form leaves out take the schema's defaults: quantity 1 and type
      `product`. The paid flag is the exception: it is 1 exactly when the box was sent
      with a value, so an unticked box stores 0, not the column default 1. */
  lemma FormDefaults(form: Form)
    ensures "quantity" !in form ==> ParseInt(ReadFields(form).quantity) == Some(DefaultQuantity)
    ensures "purchase_type" !in form ==> ReadFields(form).purchaseType == DefaultPurchaseType
    ensures "paid_on_collection" !in form ==> ReadFields(form).paid == 0
    ensures ReadFields(form).paid == 1 <==> "paid_on_collection" in form && form["paid_on_collection"] != ""
    ensures ReadFields(form).paid == 0 || ReadFields(form).paid == 1
  {
    if "quantity" !in form {
      assert Get(form, "quantity", "1") == "1";
      DefaultQuantityText();
      assert ReadFields(form).quantity == "1";
    }
  }

  /** The quantity field's default text reads as the schema's default quantity. */
  lemma DefaultQuantityText()
    ensures Text.Strip("1") == "1"
    ensures ParseInt("1") == Some(DefaultQuantity)
  {
    var one := "1";
    assert !Text.IsSpace(one[0]);
    Text.StripExact(one);
    assert AllDigits(one);
    assert one[..0] == [];
    assert DigitsValue(one) == DigitsValue(one[..0]) * 10 + DigitValue(one[0]) == 1;
  }

  /** What the handler reports back. */
  datatype Outcome = Redirected(to: Access.Decision) | Rejected(error: UploadError) | Created(purchaseId: int)

  /** The `/upload` route behind `login_required` and `role_required('shopper')`: the
      new store and the outcome. Only a created upload changes the store. */
  function UploadRoute(s: Store, session: Option<int>, form: Form, attachment: Option<string>, env: Environment): (r: (Store, Outcome))
    ensures !r.1.Created? ==> r.0 == s
    ensures r.1.Created? ==>
      && Access.CurrentUser(s, session).Some?
      && var u := Access.CurrentUser(s, session).value;
      && (u.role == ShopperRole || u.role == DevRole)
      && OneUploadAdded(s, r.0, u.id)
      && r.1.purchaseId == r.0.purchases[|s.purchases|].id
    ensures r.1.Redirected? <==> Access.Authorize(Access.CurrentUser(s, session), ShopperRole) != Access.Proceed
    ensures Access.Authorize(Access.CurrentUser(s, session), ShopperRole) == Access.Proceed ==>
      var result := Upload(s, Access.CurrentUser(s, session).value, form, attachment, env);
      && (r.1.Created? <==> result.Ok?)
      && (r.1.Created? ==> r.0 == result.value)
      && (r.1.Rejected? ==> result == Err(r.1.error))
  {
    var current := Access.CurrentUser(s, session);
    match Access.Authorize(current, ShopperRole)
    case Proceed =>
      (match Upload(s, current.value, form, attachment, env)
       case Ok(s') => (s', Created(s'.purchases[|s.purchases|].id))
       case Err(e) => (s, Rejected(e)))
    case other => (s, Redirected(other))
  }
}

=== FILE: wrappers.dfy ===
/** Failure-carrying datatypes shared by every module of the model. */
module Wrappers {

  /** An optional value: the model's stand-in for Python's `None`. */
  datatype Option<+T> = None | Some(value: T)

  /** The outcome of an operation that may raise: a value, or the error it raised. */
  datatype Result<+R, +E> = Ok(value: R) | Err(error: E) {

    predicate IsFailure()
    {
      Err?
    }

    function PropagateFailure<U>(): Result<U, E>
      requires Err?
    {
      Err(error)
    }

    function Extract(): R
      requires Ok?
    {
      value
    }
  }
}
